=== FILE: README.md ===
# Security backend: access control, users, contacts and message logs

This project is a Dafny model of a small Flask/SQLite backend. The backend
issues JWTs and manages three roles: worker, manager and admin. Managers
create workers. Admins create workers and managers. Workers scrape contacts
and log the messages they send. A cookie-protected admin panel sits on top.

The model treats the database as an immutable `Store` value. It has three
tables:

- users, kept in id order;
- contacts, kept in row order;
- message logs, append-only.

Every store function and every request handler is a pure function from a
store and a request to a reply, and to a new store where the handler
writes.

Tokens are claim sets: kind, subject, username and role claims, expiry, and
a signature flag. The JWT decorators are `Auth.Authorize`. Each handler
takes the token that `Authorize` granted.

Modules:

| module | models |
|---|---|
| `Base` | optional values and their defaults |
| `Text` | Python `strip()`, `lower()`, `str(int)`, `int(str)`, and SQLite's ASCII case folding |
| `Models` | models.py: the tables, their UNIQUE and CHECK constraints as the invariant `Valid`, and the store operations |
| `Http` | status codes, reply bodies, query-string integers (`type=int`) |
| `Auth` | auth.py: authentication, token issuance, claim reading, the role gate, and the expiry and kind checks of the JWT decorators |
| `UserRoutes` | routes/users.py |
| `AuthRoutes` | routes/auth_routes.py |
| `DataRoutes` | routes/data.py |
| `Panel` | the admin panel of app.py |

Token lifetimes are those of config.py: 24 hours for access tokens and 30
days for refresh tokens.

### Where the code and its description differ

- **`me` ignores `is_active`.** One would expect `me` to answer only for an
  active user, as login, refresh and validate do. The handler at
  routes/auth_routes.py:55-68 never reads `is_active`, so it still answers
  for a deactivated user until the token expires. The model follows the code: `AuthRoutes.Me` returns 200
  for any existing row. `AuthRoutes.DeactivatedUserLockedOut` states this
  next to the login, refresh and validate lock-out.
- **The data routes do not check `is_active`.** A deactivated worker can
  keep logging messages with an unexpired token.
- **The user routes do not check the caller's `is_active` either.**
  `can_manage_user` (models.py:160-176) reads the actor's role but not its
  `is_active`. A deactivated admin or manager with an unexpired access token
  can keep creating, updating and deleting users.
  `UserRoutes.DeactivatedActorStillManages` states this.
- **A non-integer subject widens some listings.** When a manager or worker
  token has a subject that is not an integer, `list_users`,
  `list_messages` and `count_messages` get `None`, and `None` means no
  filter. So a worker with such a subject lists every message.
- **Integers SQLite cannot bind are server errors.** Flask's `<int:...>`
  path converter accepts non-negative integers of any size. A negative
  path id never reaches a handler, because the router answers 404, so the
  user handlers take a `nat`. `type=int` accepts integers of either sign
  and any size. Python's `sqlite3` refuses to bind an integer outside the
  signed 64-bit range and raises `OverflowError`. In the user routes and
  the data listings that error is uncaught, so the answer is 500. In the
  panel pages, `admin_required` catches it and redirects to the login
  page. `Http.Bindable` is the range, and the handlers take the 500 branch
  where the code first hands such an integer to SQLite.
- **Single and bulk logging treat the recipient differently.** Single
  logging strips the recipient. Bulk logging does not, so a whitespace-only
  recipient is logged there. `DataRoutes.HasRecipient` states this.

## Model

| member | source | states |
|---|---|---|
| Models.ParseRole | models.py:31 | the role CHECK constraint admits exactly `worker`, `manager` and `admin`, and each names one role |
| Models.HashPassword | models.py:72-79 | a fresh hash verifies exactly the password it was made from |
| Models.GetUserById | models.py:102-106 | finds a row iff one has that id; the row found carries that id |
| Models.FindUsername | models.py:95-99 | finds a position holding the name, or proves no row holds it |
| Models.GetUserByUsername | models.py:95-99 | `Some` iff the username is taken, and then it is the single row with that name (UNIQUE username) |
| Models.CreateUser | models.py:82-92 | IntegrityError iff the role is not admitted or the name is taken; otherwise exactly one new active user with a fresh id and the given name, role and creator, other rows untouched, invariants kept |
| Models.UpdateUser | models.py:124-152 | false and no change when the id is absent or no field is supplied; a rename onto another user's name violates UNIQUE; otherwise only the supplied fields change, while role, creator, created_at and every other user are kept |
| Models.DeleteUser | models.py:155-157 | true iff the user exists, and then exactly that user becomes inactive |
| Models.DeleteUserIdempotent | models.py:155-157 | deleting twice gives the same answer and the same store as deleting once |
| Models.CanManage | models.py:160-176 | false when either user is missing; otherwise true exactly for an actor whose stored role is admin, or one whose stored role is manager and that created the target, whether active or not |
| Models.NewestUsers | models.py:109-121 | the views of exactly the rows matching the creator filter, in descending id order |
| Models.ListUsers | models.py:109-121 | exactly the users created by the given id (all when none is given), without password hash, highest id first |
| Models.SeedAdmin | models.py:294-301 | afterwards the admin name exists; an absent name becomes an active admin with the configured password and no creator, and an existing one leaves the store unchanged |
| Models.EvolvesTransitive | models.py:124-157 | the "ids, roles and creators never change, logs only grow" relation composes over several writes |
| Models.FindContact | models.py:47 | with UNIQUE(phone), the lookup returns the single row with that phone |
| Models.DropPhone | models.py:189-193 | removing a phone keeps exactly the rows with other phones, and keeps phones unique |
| Models.AddContact | models.py:183-195 | after the upsert exactly one row has the phone and it carries the new values; every other phone's row is unchanged |
| Models.SingleEntryKey | models.py:203-206 | a lone entry is stored under `phone` when that is non-empty, else under `number` when that is non-empty, and counted; with neither it is skipped, not counted, and the store is unchanged |
| Models.BulkAddContacts | models.py:198-214 | counts exactly the entries with a usable phone; the last entry naming a phone wins; phones no entry names are unchanged |
| Models.NewestContacts | models.py:217-231 | exactly the stored contacts matching the search, and all of them when there is no search |
| Models.Window | models.py:226-229 | SQLite LIMIT/OFFSET: the contiguous slice at the clamped offset, of the capped length; a negative limit means no limit |
| Models.WindowWithin | models.py:226-229 | a LIMIT/OFFSET window holds only listed rows, and with neither a limit nor an offset it is the whole listing |
| Models.WindowIsStretch | models.py:226-229 | a LIMIT/OFFSET window is the stretch of all the rows that starts at the offset (0 when negative) |
| Models.WindowsTile | models.py:226-229 | the window of `a` rows at offset `o` followed by the window of `b` rows at `o + a` is the window of `a + b` rows at `o`: consecutive pages neither skip nor repeat a row |
| Models.ListContacts | models.py:217-231 | as many rows as `limit` and the matches left after the offset allow (all of those for a negative limit), each a stored contact matching the search; with neither limit nor offset, every matching contact |
| Models.ContactPageSlices | models.py:217-231 | a contacts page is the stretch of the full matching listing (no limit, no offset) that starts at the offset |
| Models.ContactPagesTile | models.py:217-231 | consecutive contact pages concatenate to the page of their combined length |
| Models.CountContactsIsFullListing | models.py:234-237 | `count_contacts` is the length of the unwindowed, unfiltered listing, which holds every stored contact, and no search lists more |
| Models.LogMessage | models.py:244-258 | appends exactly one record under a fresh id and changes nothing else |
| Models.NewestMessages | models.py:261-279 | exactly the records matching the sender filter, each joined with the live sender name; with a filter their number is that sender's count |
| Models.ListMessages | models.py:261-279 | as many rows as `limit` and the matching records left after the offset allow (all of those for a negative limit), each a stored record matching the sender filter; with neither limit nor offset, every matching record |
| Models.MessagePageSlices | models.py:261-279 | a messages page is the stretch of the full listing for the same sender filter that starts at the offset |
| Models.MessagePagesTile | models.py:261-279 | consecutive message pages concatenate to the page of their combined length |
| Models.ListAllMatchesCount | models.py:282-287 | the unwindowed listing shows every matching record, and its length agrees with `count_messages` for a truthy or absent sender |
| Auth.AuthenticateUser | auth.py:14-19 | returns a user iff a row has that name, is active and verifies the password |
| Auth.GenerateTokens | auth.py:22-33 | both tokens carry the same subject, which reads back as the user id, and the same username and role; access lives 24 hours, refresh 30 days |
| Auth.IssuedRoleReadsBack | auth.py:70-73 | `get_current_role` reads both issued tokens back as the role they were issued with |
| Auth.IssuedSubjectReadsBack | auth.py:62-67 | `get_current_user_id` reads both issued tokens back as the id they were issued for |
| Auth.IssuedTokenResolves | auth.py:53-59 | `get_current_user` resolves an issued token to the row with its id while one exists, and to nothing otherwise; both tokens of a pair resolve alike |
| Auth.RequireRole | auth.py:36-50 | the handler runs iff the role claim is allowed, else 403; a missing claim is refused |
| Auth.Authorize | auth.py:36-50 | granted iff the token is present, signed, unexpired, of the wanted kind and role-allowed; token problems give 401, role problems 403 |
| Auth.KindsNotInterchangeable | auth.py:22-33 | a token accepted where access tokens are wanted is refused where refresh tokens are wanted |
| Auth.IssuedTokensTrackUser | auth.py:22-25 | issued tokens keep naming their user in every later store, and their role claim keeps matching the live role |
| Auth.UsernameClaimGoesStale | auth.py:22-25 | after a rename, earlier tokens still carry the old username claim |
| UserRoutes.StaffGate | routes/users.py:14-16 | only managers and admins (by claim) pass; a worker gets 403 |
| UserRoutes.ListUsers | routes/users.py:17-27 | admin claim: all users; other claims: exactly the users the caller created; `total` is the list length; highest id first |
| UserRoutes.GetUser | routes/users.py:33-52 | 500 iff the (non-negative) target id is above 2^63-1, since the permission check binds it first; otherwise 403 unless admin claim or the caller manages the target, checked before existence; then 404 or the target's view |
| UserRoutes.MissingTargetStatus | routes/users.py:38-43 | a missing target that SQLite can bind gives a manager 403 and an admin 404; one above 2^63-1 gives 500 to both |
| UserRoutes.CreatedIsOpened | routes/users.py:36-43 | in a table of at most 2^63-1 rows, a manager may open every user it created |
| UserRoutes.ManagerViewsWhatItLists | routes/users.py:17-43 | in a table of at most 2^63-1 rows, a manager may open exactly the users its listing shows |
| UserRoutes.CreatableRoles | routes/users.py:69-75 | a worker may always be created, a manager only by an admin claim, an admin never, and no other name |
| UserRoutes.CreateUser | routes/users.py:58-92 | 400, 403, 409 and 201 exactly under the ordered conditions; only a 201 writes, adding one active user with the lower-cased role and the caller as creator, every other user, contact and record unchanged |
| UserRoutes.KelvinSpellsWorker | routes/users.py:63-75 | `lower()` maps U+212A KELVIN SIGN to `k`, so a manager asking for role `WOR\u212aER` creates a worker with 201 |
| UserRoutes.CreateNeverMakesAdmin | routes/users.py:63-75 | the API never creates an admin, and a non-admin claim only creates workers |
| UserRoutes.CreatedUserIsListed | routes/users.py:17-92 | a user a manager creates appears in that manager's listing |
| UserRoutes.UpdateUser | routes/users.py:98-121 | 500 iff the (non-negative) target id is above 2^63-1; otherwise 403 unless the caller manages the target; 409 for another user's name; 400 with no fields; otherwise only the supplied fields of the target change |
| UserRoutes.RenameToOwnNameAllowed | routes/users.py:111-115 | keeping one's own current name is not a clash |
| UserRoutes.DeleteUser | routes/users.py:127-143 | self-delete is 400 before anything is bound; then 500 iff the (non-negative) target id is above 2^63-1; 403 unless the caller manages the target; otherwise exactly the target is deactivated |
| UserRoutes.DeactivatedActorStillManages | models.py:160-176 | deactivating a manager or admin changes neither its permission over another user nor the answer it gets from `delete_user` |
| AuthRoutes.Login | routes/auth_routes.py:15-38 | 400 without a stripped username or a password; 401 iff authentication fails; otherwise the stored id, username and role with tokens built from them |
| AuthRoutes.LoginTokensNameTheUser | routes/auth_routes.py:24-38 | an active user's correct login yields an access token that resolves to that user and claims its role |
| AuthRoutes.RefreshTokens | routes/auth_routes.py:43-52 | 500 for a non-integer subject; 401 for an absent or inactive user; otherwise tokens from the live username and role |
| AuthRoutes.RefreshEndpoint | routes/auth_routes.py:41-52 | only a valid refresh-kind token reaches the handler; an access token is refused |
| AuthRoutes.RefreshUsesLiveUser | routes/auth_routes.py:46-52 | refreshed tokens carry the live username and role, whatever the old claims said |
| AuthRoutes.Me | routes/auth_routes.py:57-68 | 404 iff the subject names no row; otherwise that row's id, username, role and creation time, active or not |
| AuthRoutes.Validate | routes/auth_routes.py:73-84 | 401 with `valid: false` iff the user is absent or inactive; otherwise valid with the live id, username and role |
| AuthRoutes.InactiveLoginFails | auth.py:14-19 | an inactive user cannot log in with any password |
| AuthRoutes.DeactivatedUserLockedOut | routes/auth_routes.py:14-84 | after a soft delete, login, refresh and validate fail for the user, while `me` still answers |
| DataRoutes.CapLimitAsWritten | routes/data.py:27 | `min(limit, 500)`: a limit up to 500 passes unchanged, negative ones included, and a larger one becomes 500 |
| DataRoutes.NegativeLimitListsEveryContact | routes/data.py:22-29 | with the cap as written, `limit=-1` returns every contact, more than 500 when there are more |
| DataRoutes.NegativeLimitListsEveryMessage | routes/data.py:78-92 | the same for the message listing |
| DataRoutes.CapLimit | routes/data.py:27 | the corrected cap: a limit between 0 and 500 |
| DataRoutes.ListContacts | routes/data.py:20-37 | 500 iff the offset is outside signed 64 bits; otherwise as many matching contacts as the capped limit and the matches left after the offset allow, so at most 500, each stored and matching the search; `total` counts the whole table |
| DataRoutes.ContactPageIsStretch | routes/data.py:20-37 | a 200 page of `/api/contacts` is the stretch of the full matching listing that starts at the requested offset, so the offset skips exactly the first rows |
| DataRoutes.DefaultContactPage | routes/data.py:22-29 | with no arguments: 200, limit 100, offset 0, the newest min(100, n) contacts |
| DataRoutes.SyncContacts | routes/data.py:42-57 | 400 and no change for an empty batch; otherwise `synced` is the number of usable entries, upserted under the source group (default `Unknown`) with the caller as scraper; users and message logs are never touched |
| DataRoutes.ResyncKeepsCount | models.py:198-214 | a batch naming only stored phones leaves the number of contacts unchanged |
| DataRoutes.AddContactKeepsCount | models.py:183-195 | upserting a stored phone replaces its row |
| DataRoutes.DropPhoneRemovesOne | models.py:47 | with unique phones, dropping a stored phone removes exactly one row |
| DataRoutes.DropPhoneAbsent | models.py:189-193 | dropping a phone that no row has changes nothing |
| DataRoutes.ContactsStats | routes/data.py:62-67 | the contact total is the length of the unwindowed, unfiltered listing, and no search lists more |
| DataRoutes.ListMessages | routes/data.py:76-100 | 500 iff the offset or the sender id in force is outside signed 64 bits; otherwise as many records matching the scope as the capped limit and the matches left after the offset allow, so at most 500; a worker claim is pinned to the caller's id; `total` is the worker's own count, or all records for other roles even when filtered |
| DataRoutes.MessagePageIsStretch | routes/data.py:76-100 | a 200 page of `/api/messages` is the stretch of the full listing for its scope that starts at the requested offset |
| DataRoutes.WorkerSeesOnlyOwnMessages | routes/data.py:85-93 | a worker's listing answers iff its offset and its own id are bindable, whatever `sender_id` it asks for; it then shows only its own records, and its total is its own count |
| DataRoutes.LogMessage | routes/data.py:105-130 | 400 and no change for a blank stripped recipient; otherwise 201 and one record with a fresh id, the caller as sender and status `sent` by default |
| DataRoutes.Sendable | routes/data.py:146-147 | the entries with a non-empty recipient, and only those |
| DataRoutes.SendableCount | routes/data.py:146-161 | one entry per batch position carrying a recipient, so `logged` counts duplicates as often as they occur |
| DataRoutes.SendableSplits | routes/data.py:143-156 | batch order is kept: the entries logged from a batch split in two are those of the first part followed by those of the second |
| DataRoutes.LogEntries | routes/data.py:143-156 | one record per entry with a recipient, in batch order, under consecutive fresh ids, with the caller as sender |
| DataRoutes.BulkLogMessages | routes/data.py:135-161 | 400 and no change for an empty batch; otherwise 201, `logged` is the number of entries with a recipient, exactly those are appended, and users and contacts are not touched |
| DataRoutes.MessagesStats | routes/data.py:166-178 | a worker claim with a truthy id counts the caller's own records; other claims, and a worker claim whose subject reads as no id or 0, count all records |
| DataRoutes.LogMessageCounts | routes/data.py:105-178 | logging one message raises the caller's `total_messages` by one |
| DataRoutes.StatsAgreeWithListings | routes/data.py:30-178 | whenever a listing answers 200, the statistics endpoint next to it reports the same total |
| Panel.AdminRequired | app.py:49-77 | the page runs iff the cookie decodes, its subject is an integer naming an active user, and that user's live role is manager or admin; otherwise redirect |
| Panel.GateIgnoresClaims | app.py:61-67 | the gate ignores the token's kind and its username and role claims |
| Panel.WorkerNeverAllowed | app.py:67-68 | no worker passes the gate, whatever its token claims |
| Panel.LoginSubmit | app.py:95-115 | "Invalid credentials" iff authentication fails; "Admin access required" iff a worker authenticates; otherwise cookies with the issued tokens, the access one not HttpOnly, the refresh one HttpOnly, both Lax |
| Panel.LoginCookieOpensPanel | app.py:95-115 | the access cookie a panel login sets opens the panel for the same user until it expires |
| Panel.DeactivatedUserRedirected | app.py:61-65 | a deactivated user is redirected even with an unexpired cookie |
| Panel.UsersPage | app.py:145-154 | an admin sees every user, a manager exactly those it created, highest id first |
| Panel.UsersPageMatchesApi | app.py:145-154 | for a caller whose claim matches its live role, the users page lists what the users API lists |
| Panel.PageCount | app.py:170 | the page count is the ceiling of total over 50 |
| Panel.ContactsPage | app.py:159-173 | caught, and so redirected to login, iff the page's offset is outside signed 64 bits; otherwise as many matching contacts as 50 and the matches left after the page's offset allow, `pages` the ceiling of total over 50 |
| Panel.PageOfRow | app.py:163-170 | with offset `(page - 1) * 50`, row i is on page i/50 + 1, and that page is within the count |
| Panel.EveryContactOnItsPage | app.py:163-170 | in a table of at most 2^63-1 rows, the page every contact's position names renders, and unfiltered it shows that contact |
| Panel.MessagesPage | app.py:178-191 | caught, and so redirected to login, iff the page's offset is outside signed 64 bits; otherwise as many stored records as 50 and the records left after the page's offset allow, `pages` the ceiling of total over 50 |
| Panel.EveryMessageOnItsPage | app.py:182-188 | in a table of at most 2^63-1 rows, every record appears on the page its newest-first position names, that page renders, and it is within the count |
| Text.Strip | routes/users.py:61 | `strip()` yields a string without whitespace at either end, empty iff the input is all whitespace |
| Text.StripFramed | routes/users.py:61 | what `strip()` yields is the piece of the input between a leading and a trailing run of whitespace |
| Text.StripIdempotent | routes/users.py:61 | stripping twice is stripping once |
| Text.ParseIntRoundTrip | auth.py:23 | `int(str(n)) == n`, so a token subject reads back as the id it was made from |
| Text.DecimalRoundTrip | auth.py:23 | the decimal numeral of n reads back as n |

## Left out

- The SQL text and SQLite itself are left out. The tables are sequences. UNIQUE and CHECK constraints are the invariant `Models.Valid`, and an `IntegrityError` stands for a violated constraint.
- The process-wide `threading.Lock` in models.py is left out: every operation is atomic and the model is sequential.
- bcrypt is idealised. A hash remembers its password, and the random salt is a parameter.
- Models.HashPassword: "a hash verifies exactly its password" holds for the idealised hash only. Real bcrypt reads only the first 72 bytes of a password: older versions silently truncate, so two passwords agreeing there verify alike, and newer ones raise `ValueError` for longer passwords. Passwords containing a NUL byte are rejected.
- JWT encoding and signing are left out: signature validity is a flag on the token.
- Clocks are left out: `datetime.now()` and the token clock are parameters.
- Library error statuses are collapsed. A missing, malformed, expired or wrong-kind token is answered with 401 here, but flask_jwt_extended answers some of these (a wrong-kind or undecodable token) with 422.
- The ordering of contacts by `scraped_at` and of messages by `sent_at` is left out. Newest-first is read as reverse write order, which assumes a clock that never goes backwards and no ties. Each write takes one `now` parameter, so the rows of one bulk request (`bulk_add_contacts`, `bulk_log_messages`) share a timestamp where the code calls `datetime.now()` once per row; the model orders them as if each were written a moment after the one before it, which is the order that distinct per-row timestamps would give.
- Contact row ids and the `lastrowid` that `add_contact` returns are left out; no handler uses them.
- JSON `null` for string fields is left out. A field is either supplied or absent. A null where the code calls `.strip()` would raise an error.
- Non-list `contacts` or `messages` bodies are left out.
- Text.Lower: Python's `lower()` is modelled only for the characters whose lower case is an ASCII letter: A to Z and U+212A KELVIN SIGN. Every other character is kept. This cannot change whether a requested role is `worker`, `manager` or `admin`, because no other character lowers to an ASCII letter alone (U+0130 lowers to `i` followed by a combining dot).
- Models.Like: the `%` and `_` wildcards inside a search term are not interpreted; the term is matched as a plain substring. Case is folded for ASCII letters only (`Text.Fold`), as SQLite `LIKE` does.
- Text.ParseInt: the digit separators (`_`) and non-ASCII digits that Python `int()` accepts are not modelled.
- The dashboard, index, logout and health routes are left out. So are CORS, blueprint registration, templates and HTML rendering, `init_db`, and the reading of configuration from the environment.
- Tokens in cookies for the API, which the configuration allows, are left out. A token reaches an API handler however it was presented.
- `decode_token` in the panel gate is assumed to check the signature and expiry but not the kind, as the library does. So a refresh token in the access cookie also opens the panel (`Panel.GateIgnoresClaims`).
- Token subjects are assumed to be integers SQLite can bind. The server signs only stored ids, which are at most 2^63-1. So `list_users`, `get_current_user`, `can_manage_user`'s actor, the worker scope of the message routes, the `scraped_by` and `sender_id` the data routes write, and the panel gate never take a 500 branch for the subject. A forged subject would need the signing key.
- Lemmas that walk a table to its end (`ManagerViewsWhatItLists`, `CreatedIsOpened`, `RenameToOwnNameAllowed`, `EveryContactOnItsPage`, `EveryMessageOnItsPage`) require it to hold at most 2^63-1 rows, the largest row id SQLite issues.
- DataRoutes.ListContacts and DataRoutes.ListMessages use the corrected cap `CapLimit`. `CapLimitAsWritten` models the code as written, and the Findings table gives the difference. The cap as written would also pass a limit below -2^63 to SQLite, which is a 500; the corrected cap never does, so the listings' 500 branch depends only on the offset and the sender id.

## Findings

| source | as written | input that shows it | evidently intended | confidence | as-written member | corrected member |
|---|---|---|---|---|---|---|
| routes/data.py:27 | `limit = min(limit, 500)` bounds the limit only from above. SQLite reads a negative LIMIT as no limit, so a negative limit returns the whole table. The same line appears at routes/data.py:83 for messages. | `GET /api/contacts?limit=-1` with 501 stored contacts returns all 501 | every listing page holds at most 500 rows | not executed | DataRoutes.NegativeLimitListsEveryContact | DataRoutes.CapLimit |

=== FILE: auth.dfy ===
/** auth.py: credential checking, token issuance and the role gate, with
    the token library reduced to what the handlers rely on. A token is the
    claim set `verify_jwt_in_request` hands back once the signature and the
    expiry have been checked; the signature itself is a flag. */
module Auth {
  import opened Base
  import opened Text
  import opened Models
  import opened Http

  /** `JWT_ACCESS_TOKEN_EXPIRES`, 24 hours, in seconds. */
  const ACCESS_TOKEN_LIFETIME: int := 24 * 60 * 60

  /** `JWT_REFRESH_TOKEN_EXPIRES`, 30 days, in seconds. */
  const REFRESH_TOKEN_LIFETIME: int := 30 * 24 * 60 * 60

  datatype TokenKind = Access | Refresh

  /** The claims of a decoded token: kind, subject, the `username` and
      `role` additional claims (a token need not carry a role), the expiry,
      and whether the server's signature checks out. */
  datatype Token = Token(
    kind: TokenKind,
    sub: string,
    username: string,
    role: Option<string>,
    expiresAt: Timestamp,
    signatureValid: bool)

  datatype TokenPair = TokenPair(access: Token, refresh: Token)

  /** `authenticate_user`: the user is returned exactly when the username
      exists, that user is active, and the password verifies. */
  function AuthenticateUser(s: Store, username: string, password: string): (r: Option<User>)
    requires Valid(s)
    ensures r.Some? <==> exists u :: u in s.users && u.username == username && u.isActive
                                      && VerifyPassword(password, u.passwordHash)
    ensures r.Some? ==> r.value in s.users && r.value.username == username && r.value.isActive
  {
    match GetUserByUsername(s, username)
    case None => None
    case Some(u) => if u.isActive && VerifyPassword(password, u.passwordHash) then Some(u) else None
  }

  /** The token library's expiry check: a token is good strictly before its
      `exp` (no leeway). */
  predicate Unexpired(t: Token, now: Timestamp) {
    now < t.expiresAt
  }

  /** `generate_tokens`: both tokens carry the same subject, `str(user_id)`,
      and the same username and role; they differ in kind and lifetime. */
  function GenerateTokens(userId: Id, username: string, role: string, now: Timestamp): (p: TokenPair)
    ensures p.access.kind == Access && p.refresh.kind == Refresh
    ensures p.access.sub == p.refresh.sub && ParseInt(p.access.sub) == Some(userId)
    ensures p.access.username == username && p.refresh.username == username
    ensures p.access.role == Some(role) && p.refresh.role == Some(role)
    ensures p.access.signatureValid && p.refresh.signatureValid
    ensures forall t :: Unexpired(p.access, t) <==> t < now + ACCESS_TOKEN_LIFETIME
    ensures forall t :: Unexpired(p.refresh, t) <==> t < now + REFRESH_TOKEN_LIFETIME
  {
    ParseIntRoundTrip(userId);
    var sub := IntToString(userId);
    TokenPair(Token(Access, sub, username, Some(role), now + ACCESS_TOKEN_LIFETIME, true),
              Token(Refresh, sub, username, Some(role), now + REFRESH_TOKEN_LIFETIME, true))
  }

  /** `get_current_role`: the role claim, `''` when the token has none. It
      is read from the token, fixed when the token was issued. */
  function RoleClaim(t: Token): (r: string)
    ensures t.role.Some? ==> r == t.role.value
    ensures t.role.None? ==> r == ""
  {
    t.role.GetOr("")
  }

  /** `get_current_user_id`: the subject read as an integer, `None` when it
      is not one. */
  function GetCurrentUserId(t: Token): Option<Id> {
    ParseInt(t.sub)
  }

  /** `get_current_user`: the live row named by the subject, `None` when the
      subject is not an integer or names no row. */
  function GetCurrentUser(s: Store, t: Token): (r: Option<User>)
    requires Valid(s)
    ensures ParseInt(t.sub).None? ==> r.None?
    ensures ParseInt(t.sub).Some? ==> r == GetUserById(s, ParseInt(t.sub).value)
  {
    match GetCurrentUserId(t)
    case None => None
    case Some(id) => GetUserById(s, id)
  }

  /** Both issued tokens read back, through `get_current_role`, as the role
      they were issued with. */
  lemma IssuedRoleReadsBack(userId: Id, username: string, role: string, now: Timestamp)
    ensures var p := GenerateTokens(userId, username, role, now);
      RoleClaim(p.access) == role && RoleClaim(p.refresh) == role
  {
  }

  /** Both issued tokens read back, through `get_current_user_id`, as the id
      they were issued for. */
  lemma IssuedSubjectReadsBack(userId: Id, username: string, role: string, now: Timestamp)
    ensures var p := GenerateTokens(userId, username, role, now);
      GetCurrentUserId(p.access) == Some(userId) && GetCurrentUserId(p.refresh) == Some(userId)
  {
  }

  /** An issued token resolves, through `get_current_user`, to the row its
      id names in the store of the moment: the row itself while there is
      one, and nothing otherwise. */
  lemma IssuedTokenResolves(s: Store, userId: Id, username: string, role: string, now: Timestamp)
    requires Valid(s)
    ensures var p := GenerateTokens(userId, username, role, now);
      && (GetCurrentUser(s, p.access).Some? <==> exists u :: u in s.users && u.id == userId)
      && (forall u :: u in s.users && u.id == userId ==> GetCurrentUser(s, p.access) == Some(u))
      && GetCurrentUser(s, p.refresh) == GetCurrentUser(s, p.access)
  {
  }

  /** The outcome of the decorators in front of a handler. */
  datatype Gate = Granted(token: Token) | Denied(status: nat, message: string)

  /** `require_role(*allowed)`: the handler runs exactly when the role claim
      is one of the allowed names; otherwise 403. A token without a role
      claim is rejected unless `''` is allowed. */
  function RequireRole(t: Token, allowed: set<string>): (g: Gate)
    ensures g.Granted? <==> RoleClaim(t) in allowed
    ensures g.Granted? ==> g.token == t
    ensures g.Denied? ==> g.status == FORBIDDEN
    ensures t.role.None? && "" !in allowed ==> g.Denied?
  {
    if RoleClaim(t) in allowed then Granted(t) else Denied(FORBIDDEN, "Insufficient permissions")
  }

  /** What `verify_jwt_in_request` accepts for an endpoint that wants tokens
      of the given kind. */
  predicate Accepts(t: Token, kind: TokenKind, now: Timestamp) {
    t.signatureValid && Unexpired(t, now) && t.kind == kind
  }

  /** `@jwt_required(refresh=...)`, followed by `@require_role(...)` when a
      role list is given: granted exactly for a present, correctly signed,
      unexpired token of the wanted kind whose role claim is allowed; a
      token problem is 401, a role problem 403. */
  function Authorize(presented: Option<Token>, kind: TokenKind, now: Timestamp,
                     allowed: Option<set<string>>): (g: Gate)
    ensures g.Granted? <==>
      presented.Some? && Accepts(presented.value, kind, now)
      && (allowed.None? || RoleClaim(presented.value) in allowed.value)
    ensures g.Granted? ==> g.token == presented.value
    ensures g.Denied? ==> (g.status == UNAUTHORIZED <==> presented.None? || !Accepts(presented.value, kind, now))
    ensures g.Denied? ==> g.status == UNAUTHORIZED || g.status == FORBIDDEN
  {
    match presented
    case None => Denied(UNAUTHORIZED, "Missing token")
    case Some(t) =>
      if !t.signatureValid then Denied(UNAUTHORIZED, "Invalid token")
      else if !Unexpired(t, now) then Denied(UNAUTHORIZED, "Token has expired")
      else if t.kind != kind then Denied(UNAUTHORIZED, "Wrong token kind")
      else if allowed.None? then Granted(t)
      else RequireRole(t, allowed.value)
  }

  /** Access and refresh tokens are not interchangeable: a token accepted
      where one kind is wanted is refused where the other is. */
  lemma KindsNotInterchangeable(t: Token, now: Timestamp, allowed: Option<set<string>>, allowed': Option<set<string>>)
    requires Authorize(Some(t), Access, now, allowed).Granted?
    ensures Authorize(Some(t), Refresh, now, allowed') == Denied(UNAUTHORIZED, "Wrong token kind")
  {
  }

  /** The tokens issued from a user row keep naming that row in every later
      store, and, because no operation rewrites a role, their role claim
      keeps matching the live role. */
  lemma IssuedTokensTrackUser(s: Store, s': Store, u: User, now: Timestamp)
    requires Valid(s) && Valid(s') && Evolves(s, s') && u in s.users
    ensures var p := GenerateTokens(u.id, u.username, RoleName(u.role), now);
      && GetCurrentUser(s', p.access).Some?
      && GetCurrentUser(s', p.access) == GetCurrentUser(s', p.refresh)
      && GetCurrentUser(s', p.access).value.id == u.id
      && RoleClaim(p.access) == RoleName(GetCurrentUser(s', p.access).value.role)
  {
    var i :| 0 <= i < |s.users| && s.users[i] == u;
    assert Keeps(s.users[i], s'.users[i]);
  }

  /** The username claim, by contrast, is a snapshot: renaming a user leaves
      the tokens issued before the rename with the old name. */
  lemma UsernameClaimGoesStale(s: Store, u: User, newName: string, now: Timestamp, salt: nat)
    requires Valid(s) && u in s.users && newName != u.username && !RenameClashes(s, u.id, newName)
    ensures var p := GenerateTokens(u.id, u.username, RoleName(u.role), now);
      var r := UpdateUser(s, u.id, Some(newName), None, None, salt);
      && r.Done? && r.value.0
      && GetCurrentUser(r.value.1, p.access).Some?
      && GetCurrentUser(r.value.1, p.access).value.username != p.access.username
  {
  }
}

=== FILE: auth_routes.dfy ===
/** routes/auth_routes.py: login, token refresh, `me` and `validate`
    under `/auth`. `me` and `validate` run behind
    `Authorize(presented, Access, now, None)`; `refresh` behind
    `Authorize(presented, Refresh, now, None)`, composed in `RefreshEndpoint`. */
module AuthRoutes {
  import opened Base
  import opened Text
  import opened Models
  import opened Http
  import opened Auth

  datatype LoginRequest = LoginRequest(username: Option<string>, password: Option<string>)

  datatype LoginResult = LoginResult(id: Id, username: string, role: string, tokens: TokenPair)

  function LoginName(req: LoginRequest): string {
    Strip(req.username.GetOr(""))
  }

  predicate LoginFieldsPresent(req: LoginRequest) {
    LoginName(req) != "" && req.password.GetOr("") != ""
  }

  /** The tokens and user summary a successful login hands back. */
  function LoginResultFor(u: User, now: Timestamp): LoginResult {
    LoginResult(u.id, u.username, RoleName(u.role), GenerateTokens(u.id, u.username, RoleName(u.role), now))
  }

  /** `login`: 400 without a (stripped) username or a password, 401 when
      authentication fails, otherwise the stored id, username and role and
      tokens built from them. */
  function Login(s: Store, req: LoginRequest, now: Timestamp): (r: Reply<LoginResult>)
    requires Valid(s)
    ensures r.status == BAD_REQUEST <==> !LoginFieldsPresent(req)
    ensures r.status == UNAUTHORIZED <==>
      LoginFieldsPresent(req) && AuthenticateUser(s, LoginName(req), req.password.GetOr("")).None?
    ensures r.status == OK <==>
      LoginFieldsPresent(req) && AuthenticateUser(s, LoginName(req), req.password.GetOr("")).Some?
    ensures r.status == OK ==>
      exists u :: u in s.users && u.isActive && u.username == LoginName(req)
                  && VerifyPassword(req.password.GetOr(""), u.passwordHash)
                  && r.body == Json(LoginResultFor(u, now))
  {
    var name := LoginName(req);
    var password := req.password.GetOr("");
    if name == "" || password == "" then Fail(BAD_REQUEST, "Username and password required")
    else
      match AuthenticateUser(s, name, password)
      case None => Fail(UNAUTHORIZED, "Invalid credentials")
      case Some(u) => Reply(OK, Json(LoginResultFor(u, now)))
  }

  /** An active user logging in with its own password gets tokens whose
      claims decode to its current id and role. */
  lemma LoginTokensNameTheUser(s: Store, u: User, password: string, now: Timestamp)
    requires Valid(s) && u in s.users && u.isActive && VerifyPassword(password, u.passwordHash)
    requires password != "" && u.username != "" && Strip(u.username) == u.username
    ensures var r := Login(s, LoginRequest(Some(u.username), Some(password)), now);
      && r.status == OK
      && GetCurrentUser(s, r.body.value.tokens.access) == Some(u)
      && RoleClaim(r.body.value.tokens.access) == RoleName(u.role)
  {
    var r := Login(s, LoginRequest(Some(u.username), Some(password)), now);
    assert AuthenticateUser(s, u.username, password) == Some(u);
    assert r.body == Json(LoginResultFor(u, now));
  }

  /** `refresh`: the subject must be an integer (otherwise the uncaught
      `ValueError` is a 500); a missing or inactive user is 401; otherwise
      fresh tokens built from the live username and role. */
  function RefreshTokens(s: Store, t: Token, now: Timestamp): (r: Reply<TokenPair>)
    requires Valid(s)
    ensures r.status == INTERNAL_ERROR <==> ParseInt(t.sub).None?
    ensures r.status == UNAUTHORIZED <==>
      (ParseInt(t.sub).Some? && GetCurrentUser(s, t).None?) || (GetCurrentUser(s, t).Some? && !GetCurrentUser(s, t).value.isActive)
    ensures r.status == OK <==> GetCurrentUser(s, t).Some? && GetCurrentUser(s, t).value.isActive
    ensures r.status == OK ==>
      var u := GetCurrentUser(s, t).value;
      r.body == Json(GenerateTokens(u.id, u.username, RoleName(u.role), now))
  {
    match ParseInt(t.sub)
    case None => Fail(INTERNAL_ERROR, "Internal server error")
    case Some(id) =>
      match GetUserById(s, id)
      case None => Fail(UNAUTHORIZED, "User not found or inactive")
      case Some(u) =>
        if !u.isActive then Fail(UNAUTHORIZED, "User not found or inactive")
        else Reply(OK, Json(GenerateTokens(u.id, u.username, RoleName(u.role), now)))
  }

  /** `POST /auth/refresh` with its `@jwt_required(refresh=True)`: only a
      valid refresh token reaches the handler. */
  function RefreshEndpoint(s: Store, presented: Option<Token>, now: Timestamp): (r: Reply<TokenPair>)
    requires Valid(s)
    ensures presented.Some? && presented.value.kind == Access ==> r.status == UNAUTHORIZED
    ensures r.status == OK ==> presented.Some? && Accepts(presented.value, Refresh, now)
    ensures presented.Some? && Accepts(presented.value, Refresh, now) ==> r == RefreshTokens(s, presented.value, now)
  {
    match Authorize(presented, Refresh, now, None)
    case Denied(code, msg) => Fail(code, msg)
    case Granted(t) => RefreshTokens(s, t, now)
  }

  /** A refresh takes the live username and role, whatever the presented
      token still claims. */
  lemma RefreshUsesLiveUser(s: Store, t: Token, u: User, now: Timestamp)
    requires Valid(s) && u in s.users && u.isActive && ParseInt(t.sub) == Some(u.id)
    ensures var r := RefreshTokens(s, t, now);
      && r.status == OK
      && r.body.value.access.username == u.username
      && r.body.value.refresh.username == u.username
      && r.body.value.access.role == Some(RoleName(u.role))
  {
    assert GetCurrentUser(s, t) == Some(u);
  }

  datatype MeResult = MeResult(id: Id, username: string, role: string, createdAt: Timestamp)

  /** `me`: 404 exactly when the subject names no live row; otherwise that
      row's id, username, role and creation time. Whether the user is
      active is not looked at. */
  function Me(s: Store, t: Token): (r: Reply<MeResult>)
    requires Valid(s)
    ensures r.status == NOT_FOUND <==> GetCurrentUser(s, t).None?
    ensures r.status == OK <==> GetCurrentUser(s, t).Some?
    ensures r.status == OK ==>
      var u := GetCurrentUser(s, t).value;
      r.body == Json(MeResult(u.id, u.username, RoleName(u.role), u.createdAt))
  {
    match GetCurrentUser(s, t)
    case None => Fail(NOT_FOUND, "User not found")
    case Some(u) => Reply(OK, Json(MeResult(u.id, u.username, RoleName(u.role), u.createdAt)))
  }

  datatype ValidateResult = Accepted(userId: Id, username: string, role: string) | Rejected

  /** `validate`: `{valid: false}` with 401 when the subject names no live
      row or an inactive one; otherwise valid, with the live id, username
      and role. */
  function Validate(s: Store, t: Token): (r: Reply<ValidateResult>)
    requires Valid(s)
    ensures r.status == UNAUTHORIZED <==> GetCurrentUser(s, t).None? || !GetCurrentUser(s, t).value.isActive
    ensures r.status == UNAUTHORIZED ==> r.body == Json(Rejected)
    ensures r.status == OK <==> GetCurrentUser(s, t).Some? && GetCurrentUser(s, t).value.isActive
    ensures r.status == OK ==>
      var u := GetCurrentUser(s, t).value;
      r.body == Json(Accepted(u.id, u.username, RoleName(u.role)))
  {
    match GetCurrentUser(s, t)
    case None => Reply(UNAUTHORIZED, Json(Rejected))
    case Some(u) =>
      if !u.isActive then Reply(UNAUTHORIZED, Json(Rejected))
      else Reply(OK, Json(Accepted(u.id, u.username, RoleName(u.role))))
  }

  /** An inactive user cannot log in, whatever password is offered. */
  lemma InactiveLoginFails(s: Store, u: User, req: LoginRequest, now: Timestamp)
    requires Valid(s) && u in s.users && !u.isActive && LoginName(req) == u.username
    ensures Login(s, req, now).status == UNAUTHORIZED || Login(s, req, now).status == BAD_REQUEST
  {
    assert GetUserByUsername(s, u.username) == Some(u);
  }

  /** Once a user is deactivated, login (under its name, with any password),
      refresh and validate (with any token naming it) all fail; `me` still
      answers. */
  lemma DeactivatedUserLockedOut(s: Store, t: Token, id: Id, req: LoginRequest, now: Timestamp)
    requires Valid(s) && GetUserById(s, id).Some? && ParseInt(t.sub) == Some(id)
    requires LoginName(req) == GetUserById(s, id).value.username
    ensures var s' := Models.DeleteUser(s, id).1;
      && Login(s', req, now).status != OK
      && RefreshTokens(s', t, now).status == UNAUTHORIZED
      && Validate(s', t).status == UNAUTHORIZED
      && Me(s', t).status == OK
  {
    var s' := Models.DeleteUser(s, id).1;
    var u' := GetUserById(s', id).value;
    InactiveLoginFails(s', u', req, now);
  }
}

=== FILE: base.dfy ===
/** Small shared vocabulary: optional values, standing for Python's `None`
    and for request fields that were not supplied. */
module Base {

  datatype Option<+T> = None | Some(value: T) {

    /** The value, or `default` when absent (Python's `d.get(key, default)`). */
    function GetOr(default: T): T {
      match this
      case Some(v) => v
      case None => default
    }
  }

  function Min(a: int, b: int): int {
    if a <= b then a else b
  }

  function Max(a: int, b: int): int {
    if a <= b then b else a
  }
}

=== FILE: data_routes.dfy ===
/** routes/data.py: contacts and message logs under `/api`. Every handler
    sits behind `Authorize(presented, Access, now, None)`: any role may call
    them, and whether the caller is still active is not looked at. */
module DataRoutes {
  import opened Base
  import opened Text
  import opened Models
  import opened Http
  import opened Auth

  /** The largest page a listing is meant to return. */
  const LIMIT_CAP: int := 500
  const DEFAULT_LIMIT: int := 100

  /** The cap as written: `min(limit, 500)`, which lets a negative limit
      through. */
  function CapLimitAsWritten(limit: int): (r: int)
    ensures r <= LIMIT_CAP
    ensures limit <= LIMIT_CAP ==> r == limit
    ensures limit > LIMIT_CAP ==> r == LIMIT_CAP
  {
    Min(limit, LIMIT_CAP)
  }

  /** With the cap as written, `limit=-1` reaches SQLite, which reads a
      negative LIMIT as no limit: every contact comes back, however many. */
  lemma NegativeLimitListsEveryContact(s: Store)
    requires |s.contacts| > LIMIT_CAP
    ensures |Models.ListContacts(s, CapLimitAsWritten(-1), 0, None)| == |s.contacts|
    ensures |Models.ListContacts(s, CapLimitAsWritten(-1), 0, None)| > LIMIT_CAP
  {
  }

  /** The same hole in the message listing. */
  lemma NegativeLimitListsEveryMessage(s: Store)
    requires Valid(s) && |s.messages| > LIMIT_CAP
    ensures |Models.ListMessages(s, CapLimitAsWritten(-1), 0, None)| > LIMIT_CAP
  {
  }

  /** The cap as intended: a page of between 0 and 500 rows. */
  function CapLimit(limit: int): (r: int)
    ensures 0 <= r <= LIMIT_CAP
    ensures 0 <= limit <= LIMIT_CAP ==> r == limit
    ensures limit > LIMIT_CAP ==> r == LIMIT_CAP
    ensures limit < 0 ==> r == 0
  {
    Max(0, Min(limit, LIMIT_CAP))
  }

  // ---------------------------------------------------------------------
  // Contacts

  datatype ContactQuery = ContactQuery(limit: Option<string>, offset: Option<string>, search: Option<string>)

  datatype ContactPage = ContactPage(contacts: seq<Contact>, total: nat, limit: int, offset: int)

  /** The search filter: given only when the argument is a non-empty string. */
  function SearchTerm(q: ContactQuery): Option<string> {
    if q.search.Some? && q.search.value != "" then q.search else None
  }

  /** `list_contacts` (with the corrected cap): 500 when the offset is
      outside what SQLite binds (the capped limit never is); otherwise as
      many matching contacts as the capped limit and the matches left
      after the offset allow, so at most 500, with `total` the size of the
      whole table whatever the filter. */
  function ListContacts(s: Store, q: ContactQuery): (r: Reply<ContactPage>)
    ensures r.status == OK <==> Bindable(QueryInt(q.offset, 0))
    ensures r.status != OK ==> r.status == INTERNAL_ERROR && r.body.Error?
    ensures r.status == OK ==>
      && r.body.Json?
      && 0 <= r.body.value.limit <= LIMIT_CAP
      && r.body.value.offset == QueryInt(q.offset, 0)
      && r.body.value.total == |s.contacts|
      && |r.body.value.contacts| ==
           PageLength(r.body.value.limit, r.body.value.offset, CountMatches(s.contacts, SearchTerm(q)))
      && forall c :: c in r.body.value.contacts ==> c in s.contacts && ContactMatches(c, SearchTerm(q))
  {
    var limit := CapLimit(QueryInt(q.limit, DEFAULT_LIMIT));
    var offset := QueryInt(q.offset, 0);
    var search := SearchTerm(q);
    PageOfContacts(s, limit, offset, search)
  }

  /** The reply once the arguments are read. */
  function PageOfContacts(s: Store, limit: int, offset: int, search: Option<string>): (r: Reply<ContactPage>)
    requires 0 <= limit <= LIMIT_CAP
    ensures r.status == OK <==> Bindable(offset)
    ensures r.status != OK ==> r.status == INTERNAL_ERROR && r.body.Error?
    ensures r.status == OK ==>
      && r.body.Json?
      && r.body.value.limit == limit && r.body.value.offset == offset
      && r.body.value.total == |s.contacts|
      && |r.body.value.contacts| == PageLength(limit, offset, CountMatches(s.contacts, search))
      && forall c :: c in r.body.value.contacts ==> c in s.contacts && ContactMatches(c, search)
  {
    if !Bindable(offset) then Fail(INTERNAL_ERROR, "Internal server error")
    else Reply(OK, Json(ContactPage(Models.ListContacts(s, limit, offset, search), |s.contacts|, limit, offset)))
  }

  /** The rows a contacts page holds are the stretch of the full matching
      listing that starts at the requested offset (0 when negative), so
      paging by the limit shows every match once. */
  lemma ContactPageIsStretch(s: Store, q: ContactQuery)
    ensures var r := ListContacts(s, q);
      r.status == OK ==>
        Stretch(r.body.value.contacts, Models.ListContacts(s, -1, 0, SearchTerm(q)), r.body.value.offset)
  {
    var limit := CapLimit(QueryInt(q.limit, DEFAULT_LIMIT));
    var offset := QueryInt(q.offset, 0);
    if Bindable(offset) {
      ContactPageSlices(s, limit, offset, SearchTerm(q));
      assert ListContacts(s, q).body.value.contacts == Models.ListContacts(s, limit, offset, SearchTerm(q));
    }
  }

  /** With no arguments at all, the listing is the newest 100 contacts (or
      all of them when there are fewer). */
  lemma DefaultContactPage(s: Store)
    ensures ListContacts(s, ContactQuery(None, None, None)).status == OK
    ensures var page := ListContacts(s, ContactQuery(None, None, None)).body.value;
      && page.limit == DEFAULT_LIMIT && page.offset == 0
      && |page.contacts| == Min(DEFAULT_LIMIT, |s.contacts|)
  {
  }

  datatype SyncRequest = SyncRequest(contacts: seq<ContactEntry>, sourceGroup: Option<string>)

  datatype SyncResult = SyncResult(synced: nat)

  /** `sync_contacts`: 400 for an empty batch; otherwise every entry with a
      usable phone is upserted under the source group (default `Unknown`)
      and the caller's id, and `synced` counts them. Users and message
      logs are not touched. */
  function SyncContacts(s: Store, t: Token, req: SyncRequest, now: Timestamp): (r: Step<SyncResult>)
    requires Valid(s)
    ensures Valid(r.store) && Evolves(s, r.store)
    ensures r.store.users == s.users && r.store.messages == s.messages
    ensures r.reply.status == BAD_REQUEST <==> req.contacts == []
    ensures r.reply.status == BAD_REQUEST ==> r.store == s
    ensures r.reply.status == OK <==> req.contacts != []
    ensures r.reply.status == OK ==>
      && r.reply.body == Json(SyncResult(|UsableEntries(req.contacts)|))
      && (forall p :: LatestEntry(req.contacts, p).Some? ==>
            FindContact(r.store.contacts, p) ==
            Some(Contact(p, LatestEntry(req.contacts, p).value.name,
                         Some(req.sourceGroup.GetOr("Unknown")), GetCurrentUserId(t), now)))
      && (forall p :: LatestEntry(req.contacts, p).None? ==>
            FindContact(r.store.contacts, p) == FindContact(s.contacts, p))
  {
    if req.contacts == [] then Step(Fail(BAD_REQUEST, "No contacts provided"), s)
    else
      var (count, s') := BulkAddContacts(s, req.contacts, req.sourceGroup.GetOr("Unknown"), GetCurrentUserId(t), now);
      Step(Reply(OK, Json(SyncResult(count))), s')
  }

  /** Syncing a batch whose phones are all already stored leaves the
      contact count unchanged. */
  lemma {:induction false} ResyncKeepsCount(s: Store, es: seq<ContactEntry>, group: string, scrapedBy: Option<Id>, now: Timestamp)
    requires Valid(s)
    requires forall k :: 0 <= k < |es| && EntryPhone(es[k]).Some? ==> FindContact(s.contacts, EntryPhone(es[k]).value).Some?
    ensures |BulkAddContacts(s, es, group, scrapedBy, now).1.contacts| == |s.contacts|
    decreases |es|
  {
    if es != [] {
      var init := es[..|es| - 1];
      var e := es[|es| - 1];
      ResyncKeepsCount(s, init, group, scrapedBy, now);
      var s1 := BulkAddContacts(s, init, group, scrapedBy, now).1;
      match EntryPhone(e)
      case None =>
      case Some(p) =>
        assert LatestEntry(init, p).Some? || LatestEntry(init, p).None?;
        assert FindContact(s1.contacts, p).Some?;
        AddContactKeepsCount(s1, p, e.name, Some(group), scrapedBy, now);
    }
  }

  /** Upserting a phone already stored replaces its row. */
  lemma AddContactKeepsCount(s: Store, phone: string, name: Option<string>, group: Option<string>,
                             scrapedBy: Option<Id>, now: Timestamp)
    requires Valid(s) && FindContact(s.contacts, phone).Some?
    ensures |AddContact(s, phone, name, group, scrapedBy, now).contacts| == |s.contacts|
  {
    DropPhoneRemovesOne(s.contacts, phone);
  }

  lemma {:induction false} DropPhoneRemovesOne(cs: seq<Contact>, phone: string)
    requires PhonesUnique(cs) && FindContact(cs, phone).Some?
    ensures |DropPhone(cs, phone)| == |cs| - 1
    decreases |cs|
  {
    PhonesUniqueTail(cs);
    if cs[0].phone == phone {
      DropPhoneAbsent(cs[1..], phone);
    } else {
      DropPhoneRemovesOne(cs[1..], phone);
    }
  }

  /** Dropping a phone no row has changes nothing. */
  lemma {:induction false} DropPhoneAbsent(cs: seq<Contact>, phone: string)
    requires forall c :: c in cs ==> c.phone != phone
    ensures DropPhone(cs, phone) == cs
    decreases |cs|
  {
    if cs != [] {
      assert cs[0] in cs;
      assert forall c :: c in cs[1..] ==> c in cs;
      DropPhoneAbsent(cs[1..], phone);
      assert DropPhone(cs, phone) == [cs[0]] + DropPhone(cs[1..], phone);
      assert cs == [cs[0]] + cs[1..];
    }
  }

  datatype ContactStats = ContactStats(totalContacts: nat)

  /** `contacts_stats`: the number of contacts an unwindowed listing
      shows, which no search exceeds. */
  function ContactsStats(s: Store): (r: Reply<ContactStats>)
    ensures r.status == OK && r.body.Json?
    ensures r.body.value.totalContacts == |Models.ListContacts(s, -1, 0, None)|
    ensures forall q :: |Models.ListContacts(s, -1, 0, q)| <= r.body.value.totalContacts
  {
    CountContactsIsFullListing(s);
    Reply(OK, Json(ContactStats(CountContacts(s))))
  }

  // ---------------------------------------------------------------------
  // Messages

  datatype MessageQuery = MessageQuery(limit: Option<string>, offset: Option<string>, senderId: Option<string>)

  datatype MessagePage = MessagePage(messages: seq<MessageRow>, total: nat, limit: int, offset: int)

  /** Whose messages a listing shows: a worker claim is pinned to the
      caller's own id, whatever it asked for; any other claim gets the
      `sender_id` argument. */
  function MessageScope(t: Token, q: MessageQuery): Option<Id> {
    if RoleClaim(t) == "worker" then GetCurrentUserId(t) else QueryId(q.senderId)
  }

  /** Whether SQLite can bind what `list_messages` hands it: the offset
      and, when there is one, the sender id (the capped limit always
      binds). */
  predicate MessageArgsBind(t: Token, q: MessageQuery) {
    Bindable(QueryInt(q.offset, 0)) && (MessageScope(t, q).None? || Bindable(MessageScope(t, q).value))
  }

  /** `list_messages` (with the corrected cap): 500 when an argument is
      outside what SQLite binds; otherwise as many records matching the
      scope as the capped limit and the matches left after the offset
      allow, so at most 500, with `total` counting the worker's own records
      for a worker claim and every record otherwise. */
  function ListMessages(s: Store, t: Token, q: MessageQuery): (r: Reply<MessagePage>)
    requires Valid(s)
    ensures r.status == OK <==> MessageArgsBind(t, q)
    ensures r.status != OK ==> r.status == INTERNAL_ERROR && r.body.Error?
    ensures r.status == OK ==>
      && r.body.Json?
      && 0 <= r.body.value.limit <= LIMIT_CAP
      && |r.body.value.messages| ==
           PageLength(r.body.value.limit, r.body.value.offset, MatchingCount(s, MessageScope(t, q)))
      && r.body.value.offset == QueryInt(q.offset, 0)
      && (forall row :: row in r.body.value.messages ==>
            row.log in s.messages && SenderMatches(row.log, MessageScope(t, q)))
      && (RoleClaim(t) != "worker" ==> r.body.value.total == |s.messages|)
      && (RoleClaim(t) == "worker" ==> r.body.value.total == CountMessages(s, GetCurrentUserId(t)))
  {
    var limit := CapLimit(QueryInt(q.limit, DEFAULT_LIMIT));
    var offset := QueryInt(q.offset, 0);
    var scope := MessageScope(t, q);
    if !MessageArgsBind(t, q) then Fail(INTERNAL_ERROR, "Internal server error")
    else
      var rows := Models.ListMessages(s, limit, offset, scope);
      var total := CountMessages(s, if RoleClaim(t) == "worker" then scope else None);
      Reply(OK, Json(MessagePage(rows, total, limit, offset)))
  }

  /** The records a messages page holds are the stretch of the full listing
      for the same scope that starts at the requested offset (0 when
      negative), so paging by the limit shows every match once. */
  lemma MessagePageIsStretch(s: Store, t: Token, q: MessageQuery)
    requires Valid(s)
    ensures var r := ListMessages(s, t, q);
      r.status == OK ==>
        Stretch(r.body.value.messages, Models.ListMessages(s, -1, 0, MessageScope(t, q)), r.body.value.offset)
  {
    var limit := CapLimit(QueryInt(q.limit, DEFAULT_LIMIT));
    var offset := QueryInt(q.offset, 0);
    if MessageArgsBind(t, q) {
      MessagePageSlices(s, limit, offset, MessageScope(t, q));
      assert ListMessages(s, t, q).body.value.messages == Models.ListMessages(s, limit, offset, MessageScope(t, q));
    }
  }

  /** A worker whose token names its id gets an answer exactly when its
      offset and its id can be bound; it then sees only its own records,
      whatever `sender_id` it asks for, and with a non-zero id the total is
      exactly how many records it sent. */
  lemma WorkerSeesOnlyOwnMessages(s: Store, t: Token, q: MessageQuery, id: Id)
    requires Valid(s) && RoleClaim(t) == "worker" && GetCurrentUserId(t) == Some(id)
    ensures ListMessages(s, t, q).status == OK <==> Bindable(QueryInt(q.offset, 0)) && Bindable(id)
    ensures ListMessages(s, t, q).status == OK ==>
      forall row :: row in ListMessages(s, t, q).body.value.messages ==> row.log.senderId == Some(id)
    ensures ListMessages(s, t, q).status == OK && id != 0 ==>
      ListMessages(s, t, q).body.value.total == CountSentBy(s.messages, id)
  {
  }

  datatype LogRequest = LogRequest(recipientPhone: Option<string>, content: Option<string>,
                                   attachmentPath: Option<string>, templateUsed: Option<string>,
                                   status: Option<string>)

  datatype LogResult = LogResult(logId: Id)

  /** `log_message`: 400 when the stripped recipient is empty; otherwise
      201 and one new record under a fresh id, sent by the caller, with the
      stripped recipient and status `sent` unless another was given. */
  function LogMessage(s: Store, t: Token, req: LogRequest, now: Timestamp): (r: Step<LogResult>)
    requires Valid(s)
    ensures Valid(r.store) && Evolves(s, r.store)
    ensures r.reply.status == BAD_REQUEST <==> Strip(req.recipientPhone.GetOr("")) == ""
    ensures r.reply.status == BAD_REQUEST ==> r.store == s
    ensures r.reply.status == CREATED <==> Strip(req.recipientPhone.GetOr("")) != ""
    ensures r.reply.status == CREATED ==>
      && r.reply.body.Json?
      && (forall m :: m in s.messages ==> m.id != r.reply.body.value.logId)
      && r.store.users == s.users && r.store.contacts == s.contacts
      && r.store.messages == s.messages +
           [MessageLog(r.reply.body.value.logId, GetCurrentUserId(t), Strip(req.recipientPhone.GetOr("")),
                       req.content.GetOr(""), req.attachmentPath, req.templateUsed, now,
                       req.status.GetOr("sent"))]
  {
    var recipient := Strip(req.recipientPhone.GetOr(""));
    if recipient == "" then Step(Fail(BAD_REQUEST, "Recipient phone required"), s)
    else
      var (id, s') := Models.LogMessage(s, GetCurrentUserId(t), recipient, req.content.GetOr(""),
                                        req.attachmentPath, req.templateUsed, req.status.GetOr("sent"), now);
      Step(Reply(CREATED, Json(LogResult(id))), s')
  }

  /** Whether a bulk entry is logged: its recipient is present and
      non-empty (not stripped, unlike the single-message route). */
  predicate HasRecipient(e: LogRequest) {
    e.recipientPhone.Some? && e.recipientPhone.value != ""
  }

  /** The positions of the entries that carry a recipient. */
  function Recipients(es: seq<LogRequest>): set<nat> {
    set k | 0 <= k < |es| && HasRecipient(es[k])
  }

  lemma RecipientsExtend(es: seq<LogRequest>, e: LogRequest)
    ensures Recipients(es + [e]) == Recipients(es) + (if HasRecipient(e) then {|es|} else {})
  {
    var es' := es + [e];
    assert forall k :: 0 <= k < |es| ==> es'[k] == es[k];
  }

  /** The entries of a batch that get logged, in order: those with a
      recipient. `SendableCount` and `SendableSplits` pin down how many and
      in which order. */
  function Sendable(es: seq<LogRequest>): (r: seq<LogRequest>)
    ensures |r| <= |es|
    ensures forall e :: e in r <==> e in es && HasRecipient(e)
    decreases |es|
  {
    if es == [] then []
    else
      var init := es[..|es| - 1];
      var e := es[|es| - 1];
      assert forall x :: x in es <==> x in init || x == e;
      Sendable(init) + (if HasRecipient(e) then [e] else [])
  }

  /** One entry is logged for each position of the batch that carries a
      recipient: equal entries are logged as often as they occur. */
  lemma {:induction false} SendableCount(es: seq<LogRequest>)
    ensures |Sendable(es)| == |Recipients(es)|
    decreases |es|
  {
    if es == [] {
      assert Recipients(es) == {};
    } else {
      var init := es[..|es| - 1];
      var e := es[|es| - 1];
      assert es == init + [e];
      SendableCount(init);
      RecipientsExtend(init, e);
      assert |es| - 1 !in Recipients(init);
    }
  }

  /** Sendable keeps batch order: the entries logged from a batch split in
      two are those of the first part followed by those of the second. */
  lemma {:induction false} SendableSplits(a: seq<LogRequest>, b: seq<LogRequest>)
    ensures Sendable(a + b) == Sendable(a) + Sendable(b)
    decreases |b|
  {
    if b == [] {
      assert a + b == a;
    } else {
      var b' := b[..|b| - 1];
      var x := b[|b| - 1];
      assert (a + b)[..|a + b| - 1] == a + b';
      assert (a + b)[|a + b| - 1] == x;
      SendableSplits(a, b');
    }
  }

  /** The record a bulk entry becomes. */
  function EntryLog(e: LogRequest, id: Id, sender: Option<Id>, now: Timestamp): MessageLog {
    MessageLog(id, sender, e.recipientPhone.GetOr(""), e.content.GetOr(""), e.attachmentPath,
               e.templateUsed, now, e.status.GetOr("sent"))
  }

  /** The loop of `bulk_log_messages`: one record per entry with a
      recipient, in batch order, under consecutive fresh ids. */
  function LogEntries(s: Store, es: seq<LogRequest>, sender: Option<Id>, now: Timestamp): (r: (nat, Store))
    requires Valid(s)
    ensures Valid(r.1) && Evolves(s, r.1)
    ensures r.1.users == s.users && r.1.contacts == s.contacts
    ensures r.0 == |Sendable(es)|
    ensures |r.1.messages| == |s.messages| + r.0 && r.1.messages[..|s.messages|] == s.messages
    ensures forall i :: 0 <= i < r.0 ==>
      r.1.messages[|s.messages| + i] == EntryLog(Sendable(es)[i], |s.messages| + i + 1, sender, now)
    decreases |es|
  {
    if es == [] then (0, s)
    else
      var init := es[..|es| - 1];
      var e := es[|es| - 1];
      var (n, s1) := LogEntries(s, init, sender, now);
      assert es == init + [e];
      LogNext(s, s1, n, init, e, sender, now)
  }

  /** One turn of the bulk loop: the entry after `init` is logged when it
      carries a recipient and skipped otherwise, so the records after the
      original ones still match the sendable entries one for one. */
  function LogNext(s: Store, s1: Store, n: nat, init: seq<LogRequest>, e: LogRequest,
                   sender: Option<Id>, now: Timestamp): (r: (nat, Store))
    requires Valid(s) && Valid(s1) && Evolves(s, s1)
    requires s1.users == s.users && s1.contacts == s.contacts
    requires n == |Sendable(init)|
    requires |s1.messages| == |s.messages| + n && s1.messages[..|s.messages|] == s.messages
    requires forall i :: 0 <= i < n ==>
      s1.messages[|s.messages| + i] == EntryLog(Sendable(init)[i], |s.messages| + i + 1, sender, now)
    ensures Valid(r.1) && Evolves(s, r.1)
    ensures r.1.users == s.users && r.1.contacts == s.contacts
    ensures r.0 == |Sendable(init + [e])|
    ensures |r.1.messages| == |s.messages| + r.0 && r.1.messages[..|s.messages|] == s.messages
    ensures forall i :: 0 <= i < r.0 ==>
      r.1.messages[|s.messages| + i] == EntryLog(Sendable(init + [e])[i], |s.messages| + i + 1, sender, now)
  {
    var es := init + [e];
    assert es[..|es| - 1] == init;
    if HasRecipient(e) then
      var (id, s2) := Models.LogMessage(s1, sender, e.recipientPhone.GetOr(""), e.content.GetOr(""),
                                        e.attachmentPath, e.templateUsed, e.status.GetOr("sent"), now);
      EvolvesTransitive(s, s1, s2);
      LogStep(s, s1, s2, init, e, id, sender, now);
      (n + 1, s2)
    else
      assert Sendable(es) == Sendable(init);
      (n, s1)
  }

  /** One step of the bulk loop: appending the record of one more sendable
      entry extends the correspondence between new records and sendable
      entries by one. */
  lemma LogStep(s: Store, s1: Store, s2: Store, init: seq<LogRequest>, e: LogRequest,
                id: Id, sender: Option<Id>, now: Timestamp)
    requires HasRecipient(e) && LogIdsArePositions(s2.messages)
    requires |s1.messages| == |s.messages| + |Sendable(init)| && s1.messages[..|s.messages|] == s.messages
    requires forall i :: 0 <= i < |Sendable(init)| ==>
      s1.messages[|s.messages| + i] == EntryLog(Sendable(init)[i], |s.messages| + i + 1, sender, now)
    requires s2.messages == s1.messages + [MessageLog(id, sender, e.recipientPhone.GetOr(""),
                                                      e.content.GetOr(""), e.attachmentPath, e.templateUsed, now,
                                                      e.status.GetOr("sent"))]
    ensures var es := init + [e];
      && |s2.messages| == |s.messages| + |Sendable(es)| && s2.messages[..|s.messages|] == s.messages
      && forall i :: 0 <= i < |Sendable(es)| ==>
           s2.messages[|s.messages| + i] == EntryLog(Sendable(es)[i], |s.messages| + i + 1, sender, now)
  {
    var es := init + [e];
    assert es[..|es| - 1] == init;
    assert Sendable(es) == Sendable(init) + [e];
    assert s2.messages[..|s.messages|] == s1.messages[..|s.messages|];
  }

  datatype BulkLogResult = BulkLogResult(logged: nat)

  /** `bulk_log_messages`: 400 for an empty batch; otherwise 201 whether or
      not anything was logged, with `logged` the number of entries that
      carried a recipient, each appended as a record sent by the caller. */
  function BulkLogMessages(s: Store, t: Token, es: seq<LogRequest>, now: Timestamp): (r: Step<BulkLogResult>)
    requires Valid(s)
    ensures Valid(r.store) && Evolves(s, r.store)
    ensures r.store.users == s.users && r.store.contacts == s.contacts
    ensures r.reply.status == BAD_REQUEST <==> es == []
    ensures r.reply.status == BAD_REQUEST ==> r.store == s
    ensures r.reply.status == CREATED <==> es != []
    ensures r.reply.status == CREATED ==>
      && r.reply.body == Json(BulkLogResult(|Sendable(es)|))
      && |r.store.messages| == |s.messages| + |Sendable(es)|
      && r.store.messages[..|s.messages|] == s.messages
      && (forall i :: 0 <= i < |Sendable(es)| ==>
            r.store.messages[|s.messages| + i] == EntryLog(Sendable(es)[i], |s.messages| + i + 1, GetCurrentUserId(t), now))
  {
    if es == [] then Step(Fail(BAD_REQUEST, "No messages provided"), s)
    else
      var (count, s') := LogEntries(s, es, GetCurrentUserId(t), now);
      Step(Reply(CREATED, Json(BulkLogResult(count))), s')
  }

  datatype MessageStats = MessageStats(totalMessages: nat)

  /** `messages_stats`: a worker claim with a truthy subject counts the
      caller's own records; any other claim, and a worker claim whose
      subject reads as no id or as 0, counts them all. */
  function MessagesStats(s: Store, t: Token): (r: Reply<MessageStats>)
    ensures r.status == OK && r.body.Json?
    ensures RoleClaim(t) != "worker" ==> r.body.value.totalMessages == |s.messages|
    ensures RoleClaim(t) == "worker" && Truthy(GetCurrentUserId(t)) ==>
      r.body.value.totalMessages == CountSentBy(s.messages, GetCurrentUserId(t).value)
    ensures RoleClaim(t) == "worker" && !Truthy(GetCurrentUserId(t)) ==> r.body.value.totalMessages == |s.messages|
  {
    var total := if RoleClaim(t) == "worker" then CountMessages(s, GetCurrentUserId(t)) else CountMessages(s, None);
    Reply(OK, Json(MessageStats(total)))
  }

  /** The statistics and the listing agree: logging one message raises the
      caller's own `total_messages` by one, for every role. */
  lemma LogMessageCounts(s: Store, t: Token, req: LogRequest, now: Timestamp)
    requires Valid(s) && Truthy(GetCurrentUserId(t)) && Strip(req.recipientPhone.GetOr("")) != ""
    ensures MessagesStats(LogMessage(s, t, req, now).store, t).body.value.totalMessages ==
            MessagesStats(s, t).body.value.totalMessages + 1
  {
    var s' := LogMessage(s, t, req, now).store;
    assert s'.messages[..|s.messages|] == s.messages;
  }

  /** The two statistics endpoints report the same totals as the listings
      next to them, whatever the arguments of a listing that answers. */
  lemma StatsAgreeWithListings(s: Store, t: Token, cq: ContactQuery, mq: MessageQuery)
    requires Valid(s)
    ensures ListContacts(s, cq).status == OK ==>
      ContactsStats(s).body.value.totalContacts == ListContacts(s, cq).body.value.total
    ensures ListMessages(s, t, mq).status == OK ==>
      MessagesStats(s, t).body.value.totalMessages == ListMessages(s, t, mq).body.value.total
  {
  }
}

=== FILE: http.dfy ===
/** The HTTP surface every handler answers through: a status code and
    either a JSON payload or an `{"error": ...}` body, together with the
    store the request leaves behind. */
module Http {
  import opened Base
  import opened Text
  import opened Models

  const OK: nat := 200
  const CREATED: nat := 201
  const BAD_REQUEST: nat := 400
  const UNAUTHORIZED: nat := 401
  const FORBIDDEN: nat := 403
  const NOT_FOUND: nat := 404
  const CONFLICT: nat := 409
  const INTERNAL_ERROR: nat := 500

  /** The integers SQLite binds: signed 64-bit values. Python's `sqlite3`
      raises `OverflowError` for a parameter outside this range before the
      statement runs, and Flask answers the uncaught error with 500. */
  const INT64_MIN: int := -0x8000_0000_0000_0000
  const INT64_MAX: int := 0x7FFF_FFFF_FFFF_FFFF

  predicate Bindable(n: int) {
    INT64_MIN <= n <= INT64_MAX
  }

  datatype Body<+T> = Json(value: T) | Error(message: string)

  datatype Reply<+T> = Reply(status: nat, body: Body<T>)

  /** The reply to one request and the store after it. */
  datatype Step<+T> = Step(reply: Reply<T>, store: Store)

  function Fail<T>(status: nat, message: string): Reply<T> {
    Reply(status, Error(message))
  }

  /** A query-string integer read with a default: a missing argument, or
      one `int()` rejects, gives the default. */
  function QueryInt(arg: Option<string>, default: int): int {
    if arg.Some? && ParseInt(arg.value).Some? then ParseInt(arg.value).value else default
  }

  /** A query-string integer with no default: `None` when missing or
      malformed. */
  function QueryId(arg: Option<string>): Option<int> {
    if arg.Some? then ParseInt(arg.value) else None
  }
}

=== FILE: models.dfy ===
/** The SQLite store of models.py as an immutable value: the `users`,
    `contacts` and `message_logs` tables, the constraints their DDL declares,
    and the operations the rest of the backend calls. Every operation is
    atomic (the source serialises writers with one process-wide lock). */
module Models {
  import opened Base
  import Text

  type Id = int

  /** A clock reading; the source stamps rows with `datetime.now()`. */
  type Timestamp = int

  datatype Role = Worker | Manager | Admin

  function RoleName(r: Role): string {
    match r
    case Worker => "worker"
    case Manager => "manager"
    case Admin => "admin"
  }

  /** The CHECK constraint on `users.role`: exactly three names are
      admitted, and each names one role. */
  function ParseRole(name: string): (r: Option<Role>)
    ensures r.Some? <==> name == "worker" || name == "manager" || name == "admin"
    ensures r.Some? ==> RoleName(r.value) == name
  {
    if name == "worker" then Some(Worker)
    else if name == "manager" then Some(Manager)
    else if name == "admin" then Some(Admin)
    else None
  }

  /** A bcrypt hash, idealised: it remembers the password it was made from
      and the salt drawn for it, and nothing can read it back out of a
      response because no response type carries it. */
  datatype PasswordHash = PasswordHash(secret: string, salt: nat)

  predicate VerifyPassword(password: string, h: PasswordHash) {
    password == h.secret
  }

  /** `hash_password`: the salt is the randomness `bcrypt.gensalt()` draws. */
  function HashPassword(password: string, salt: nat): (h: PasswordHash)
    ensures forall p :: VerifyPassword(p, h) <==> p == password
  {
    PasswordHash(password, salt)
  }

  datatype User = User(
    id: Id,
    username: string,
    passwordHash: PasswordHash,
    role: Role,
    createdBy: Option<Id>,
    createdAt: Timestamp,
    isActive: bool)

  /** The columns `list_users` selects: everything but the password hash. */
  datatype UserView = UserView(
    id: Id,
    username: string,
    role: Role,
    createdBy: Option<Id>,
    createdAt: Timestamp,
    isActive: bool)

  function View(u: User): UserView {
    UserView(u.id, u.username, u.role, u.createdBy, u.createdAt, u.isActive)
  }

  datatype Contact = Contact(
    phone: string,
    name: Option<string>,
    sourceGroup: Option<string>,
    scrapedBy: Option<Id>,
    scrapedAt: Timestamp)

  datatype MessageLog = MessageLog(
    id: Id,
    senderId: Option<Id>,
    recipientPhone: string,
    content: string,
    attachmentPath: Option<string>,
    templateUsed: Option<string>,
    sentAt: Timestamp,
    status: string)

  /** The three tables. Users and message logs are kept in id order, which
      AUTOINCREMENT without deletions makes 1, 2, 3, ...; contacts are kept
      in row order, the latest write last. */
  datatype Store = Store(users: seq<User>, contacts: seq<Contact>, messages: seq<MessageLog>)

  /** What SQLite reports when an insert or update breaks UNIQUE or CHECK. */
  datatype DbResult<T> = Done(value: T) | IntegrityError

  const EmptyStore := Store([], [], [])

  // ---------------------------------------------------------------------
  // Constraints of the schema

  ghost predicate UserIdsArePositions(users: seq<User>) {
    forall i :: 0 <= i < |users| ==> users[i].id == i + 1
  }

  /** `username TEXT UNIQUE` */
  ghost predicate UsernamesUnique(users: seq<User>) {
    forall i, j :: 0 <= i < |users| && 0 <= j < |users| && i != j ==> users[i].username != users[j].username
  }

  /** `UNIQUE(phone)` */
  ghost predicate PhonesUnique(cs: seq<Contact>) {
    forall i, j :: 0 <= i < |cs| && 0 <= j < |cs| && i != j ==> cs[i].phone != cs[j].phone
  }

  ghost predicate LogIdsArePositions(ms: seq<MessageLog>) {
    forall i :: 0 <= i < |ms| ==> ms[i].id == i + 1
  }

  /** The states the database can be in. That every role is one of the
      three admitted names holds by the type `Role`. */
  ghost predicate Valid(s: Store) {
    && UserIdsArePositions(s.users)
    && UsernamesUnique(s.users)
    && PhonesUnique(s.contacts)
    && LogIdsArePositions(s.messages)
  }

  lemma EmptyStoreValid()
    ensures Valid(EmptyStore)
  {
  }

  /** The parts of a user row nothing ever rewrites. */
  predicate Keeps(u: User, u': User) {
    u'.id == u.id && u'.role == u.role && u'.createdBy == u.createdBy && u'.createdAt == u.createdAt
  }

  /** How the store may change over time: no user row disappears, no user's
      id, role, creator or creation time changes, and the message log only
      grows at its end. */
  ghost predicate Evolves(s: Store, s': Store) {
    && |s.users| <= |s'.users|
    && (forall i :: 0 <= i < |s.users| ==> Keeps(s.users[i], s'.users[i]))
    && s.messages <= s'.messages
  }

  lemma EvolvesTransitive(s1: Store, s2: Store, s3: Store)
    requires Evolves(s1, s2) && Evolves(s2, s3)
    ensures Evolves(s1, s3)
  {
    assert s1.messages <= s3.messages by {
      assert s2.messages[..|s1.messages|] == s1.messages;
      assert s3.messages[..|s2.messages|] == s2.messages;
      assert s3.messages[..|s1.messages|] == s2.messages[..|s1.messages|];
    }
  }

  // ---------------------------------------------------------------------
  // Users

  /** `get_user_by_id` */
  function GetUserById(s: Store, id: Id): (r: Option<User>)
    requires Valid(s)
    ensures r.Some? <==> exists u :: u in s.users && u.id == id
    ensures r.Some? ==> r.value in s.users && r.value.id == id
  {
    if 1 <= id <= |s.users| then Some(s.users[id - 1]) else None
  }

  predicate UsernameTaken(s: Store, name: string) {
    exists u :: u in s.users && u.username == name
  }

  /** The position of the first row with the given username. */
  function FindUsername(users: seq<User>, name: string): (r: Option<nat>)
    ensures r.Some? ==> r.value < |users| && users[r.value].username == name
    ensures r.None? ==> forall u :: u in users ==> u.username != name
  {
    if users == [] then None
    else if users[0].username == name then Some(0)
    else
      match FindUsername(users[1..], name)
      case None => None
      case Some(k) => Some(k + 1)
  }

  /** `get_user_by_username`: the one row holding that username, if any. */
  function GetUserByUsername(s: Store, name: string): (r: Option<User>)
    requires Valid(s)
    ensures r.Some? <==> UsernameTaken(s, name)
    ensures forall u :: u in s.users && u.username == name ==> r == Some(u)
  {
    match FindUsername(s.users, name)
    case None => None
    case Some(k) => Some(s.users[k])
  }

  /** `create_user`: the insert fails when the role is not one of the three
      names or the username is taken; otherwise it adds exactly one active
      user, under an id no row had, and touches nothing else. */
  function CreateUser(s: Store, username: string, password: string, role: string,
                      createdBy: Option<Id>, now: Timestamp, salt: nat): (r: DbResult<(Id, Store)>)
    requires Valid(s)
    ensures r.IntegrityError? <==> ParseRole(role).None? || UsernameTaken(s, username)
    ensures r.Done? ==>
      var (id, s') := r.value;
      && Valid(s')
      && Evolves(s, s')
      && (forall u :: u in s.users ==> u.id != id)
      && |s'.users| == |s.users| + 1
      && GetUserById(s', id) == Some(User(id, username, HashPassword(password, salt),
                                          ParseRole(role).value, createdBy, now, true))
      && (forall j :: j != id ==> GetUserById(s', j) == GetUserById(s, j))
      && s'.contacts == s.contacts && s'.messages == s.messages
  {
    match ParseRole(role)
    case None => IntegrityError
    case Some(rl) =>
      if UsernameTaken(s, username) then IntegrityError
      else
        var id := |s.users| + 1;
        var u := User(id, username, HashPassword(password, salt), rl, createdBy, now, true);
        Done((id, s.(users := s.users + [u])))
  }

  /** Whether renaming user `id` to `name` would collide with another row. */
  predicate RenameClashes(s: Store, id: Id, name: string) {
    exists u :: u in s.users && u.username == name && u.id != id
  }

  /** The target row after `update_user` applied the supplied fields: the
      username and active flag as given, a fresh hash of the new password,
      and everything else as it was. */
  predicate Patched(u: User, u': User, username: Option<string>, password: Option<string>, isActive: Option<bool>) {
    && Keeps(u, u')
    && u'.username == username.GetOr(u.username)
    && u'.isActive == isActive.GetOr(u.isActive)
    && (password.None? ==> u'.passwordHash == u.passwordHash)
    && (password.Some? ==> VerifyPassword(password.value, u'.passwordHash))
  }

  /** `update_user`: false and no change when the user is absent or no field
      is supplied; the UNIQUE constraint fails a rename onto another user's
      name; otherwise only the supplied fields of the target change. */
  function UpdateUser(s: Store, id: Id, username: Option<string>, password: Option<string>,
                      isActive: Option<bool>, salt: nat): (r: DbResult<(bool, Store)>)
    requires Valid(s)
    ensures r.IntegrityError? <==>
      GetUserById(s, id).Some? && username.Some? && RenameClashes(s, id, username.value)
    ensures r.Done? ==>
      (r.value.0 <==> GetUserById(s, id).Some? && (username.Some? || password.Some? || isActive.Some?))
    ensures r.Done? && !r.value.0 ==> r.value.1 == s
    ensures r.Done? && r.value.0 ==>
      var s' := r.value.1;
      && Valid(s')
      && Evolves(s, s')
      && |s'.users| == |s.users|
      && GetUserById(s', id).Some?
      && Patched(GetUserById(s, id).value, GetUserById(s', id).value, username, password, isActive)
      && (forall j :: j != id ==> GetUserById(s', j) == GetUserById(s, j))
      && s'.contacts == s.contacts && s'.messages == s.messages
  {
    match GetUserById(s, id)
    case None => Done((false, s))
    case Some(u) =>
      if username.None? && password.None? && isActive.None? then Done((false, s))
      else if username.Some? && RenameClashes(s, id, username.value) then IntegrityError
      else
        var hash := if password.Some? then HashPassword(password.value, salt) else u.passwordHash;
        var u' := u.(username := username.GetOr(u.username), passwordHash := hash,
                     isActive := isActive.GetOr(u.isActive));
        ReplaceUserKeepsValid(s, id, u');
        Done((true, s.(users := s.users[id - 1 := u'])))
  }

  /** Rewriting one user row in place, keeping what `Keeps` keeps and
      taking no other row's name, keeps the store valid and is an allowed
      evolution; every other id still finds its old row. */
  lemma ReplaceUserKeepsValid(s: Store, id: Id, u': User)
    requires Valid(s) && 1 <= id <= |s.users| && Keeps(s.users[id - 1], u')
    requires !RenameClashes(s, id, u'.username)
    ensures var s' := s.(users := s.users[id - 1 := u']);
      && Valid(s') && Evolves(s, s')
      && (forall j :: j != id ==> GetUserById(s', j) == GetUserById(s, j))
  {
    var s' := s.(users := s.users[id - 1 := u']);
    forall i, j | 0 <= i < |s'.users| && 0 <= j < |s'.users| && i != j
      ensures s'.users[i].username != s'.users[j].username
    {
      if i == id - 1 {
        assert s.users[j] in s.users && s.users[j].id != id;
      } else if j == id - 1 {
        assert s.users[i] in s.users && s.users[i].id != id;
      }
    }
  }

  /** `delete_user`, a soft delete: true exactly when the user exists, and
      then that user is inactive and nothing else differs. */
  function DeleteUser(s: Store, id: Id): (r: (bool, Store))
    requires Valid(s)
    ensures r.0 <==> GetUserById(s, id).Some?
    ensures !r.0 ==> r.1 == s
    ensures r.0 ==>
      && Valid(r.1)
      && Evolves(s, r.1)
      && |r.1.users| == |s.users|
      && GetUserById(r.1, id) == Some(GetUserById(s, id).value.(isActive := false))
      && (forall j :: j != id ==> GetUserById(r.1, j) == GetUserById(s, j))
      && r.1.contacts == s.contacts && r.1.messages == s.messages
  {
    match UpdateUser(s, id, None, None, Some(false), 0)
    case Done(v) => v
    case IntegrityError => (false, s)
  }

  /** Deleting twice is deleting once: same answer, same store. */
  lemma DeleteUserIdempotent(s: Store, id: Id)
    requires Valid(s)
    ensures var (b, s1) := DeleteUser(s, id); DeleteUser(s1, id) == (b, s1)
  {
    var (b, s1) := DeleteUser(s, id);
    if b {
      var u := s1.users[id - 1];
      assert !u.isActive;
      assert s1.users[id - 1 := u.(isActive := false)] == s1.users;
    }
  }

  /** `can_manage_user`: false when either user is missing; an admin manages
      everyone, a manager exactly the users it created, and a worker no one.
      It reads the actor's role from the store, not from any token. */
  function CanManage(s: Store, actor: Option<Id>, target: Id): (b: bool)
    requires Valid(s)
    ensures b ==> actor.Some? && GetUserById(s, actor.value).Some? && GetUserById(s, target).Some?
    ensures actor.Some? && GetUserById(s, actor.value).Some? && GetUserById(s, target).Some? ==>
      var a := GetUserById(s, actor.value).value;
      (b <==> a.role == Admin || (a.role == Manager && GetUserById(s, target).value.createdBy == actor))
  {
    match actor
    case None => false
    case Some(a) =>
      match (GetUserById(s, a), GetUserById(s, target))
      case (Some(m), Some(t)) =>
        if m.role == Admin then true
        else if m.role == Manager then t.createdBy == Some(a)
        else false
      case _ => false
  }

  predicate CreatedByMatches(u: User, createdBy: Option<Id>) {
    createdBy.None? || u.createdBy == createdBy
  }

  ghost predicate IdsIncreasing(users: seq<User>) {
    forall i, j :: 0 <= i < j < |users| ==> users[i].id < users[j].id
  }

  lemma IdsBelowLast(users: seq<User>)
    requires |users| > 0
    ensures IdsIncreasing(users) ==> IdsIncreasing(users[..|users| - 1])
    ensures IdsIncreasing(users) ==> forall u :: u in users[..|users| - 1] ==> u.id < users[|users| - 1].id
  {
    if IdsIncreasing(users) {
      var init := users[..|users| - 1];
      forall u | u in init ensures u.id < users[|users| - 1].id {
        var k :| 0 <= k < |init| && init[k] == u;
        assert users[k] == u;
      }
    }
  }

  ghost predicate Descending(vs: seq<UserView>) {
    forall i, j :: 0 <= i < j < |vs| ==> vs[i].id > vs[j].id
  }

  lemma DescendingCons(v: UserView, rest: seq<UserView>)
    ensures Descending(rest) && (forall x :: x in rest ==> x.id < v.id) ==> Descending([v] + rest)
  {
    if Descending(rest) && (forall x :: x in rest ==> x.id < v.id) {
      var r := [v] + rest;
      forall i, j | 0 <= i < j < |r| ensures r[i].id > r[j].id {
        if i == 0 {
          assert r[j] in rest;
        } else {
          assert r[i] == rest[i - 1] && r[j] == rest[j - 1];
        }
      }
    }
  }

  /** The views of the rows matching the creator filter, highest id first. */
  function NewestUsers(users: seq<User>, createdBy: Option<Id>): (r: seq<UserView>)
    ensures |r| <= |users|
    ensures createdBy.None? ==> |r| == |users|
    ensures forall v :: v in r ==> exists u :: u in users && CreatedByMatches(u, createdBy) && v == View(u)
    ensures forall u :: u in users && CreatedByMatches(u, createdBy) ==> View(u) in r
    ensures IdsIncreasing(users) ==> Descending(r)
    decreases |users|
  {
    if users == [] then []
    else
      var last := users[|users| - 1];
      var rest := NewestUsers(users[..|users| - 1], createdBy);
      assert forall u :: u in users ==> u == last || u in users[..|users| - 1];
      IdsBelowLast(users);
      if CreatedByMatches(last, createdBy) then
        DescendingCons(View(last), rest);
        [View(last)] + rest
      else rest
  }

  /** `list_users(created_by)`: exactly the users the given id created (all
      users when no id is given), as views without the password hash, in
      descending id order. */
  function ListUsers(s: Store, createdBy: Option<Id>): (r: seq<UserView>)
    requires Valid(s)
    ensures createdBy.None? ==> |r| == |s.users|
    ensures forall v :: v in r ==> exists u :: u in s.users && CreatedByMatches(u, createdBy) && v == View(u)
    ensures forall u :: u in s.users && CreatedByMatches(u, createdBy) ==> View(u) in r
    ensures forall i, j :: 0 <= i < j < |r| ==> r[i].id > r[j].id
  {
    NewestUsers(s.users, createdBy)
  }

  /** `seed_admin`: afterwards the configured admin name exists; if it did
      not before, it now names an active admin created by no one. */
  function SeedAdmin(s: Store, username: string, password: string, now: Timestamp, salt: nat): (s': Store)
    requires Valid(s)
    ensures Valid(s') && Evolves(s, s')
    ensures UsernameTaken(s', username)
    ensures UsernameTaken(s, username) ==> s' == s
    ensures !UsernameTaken(s, username) ==>
      var u := GetUserByUsername(s', username).value;
      u.role == Admin && u.createdBy.None? && u.isActive && VerifyPassword(password, u.passwordHash)
  {
    if UsernameTaken(s, username) then s
    else
      match CreateUser(s, username, password, "admin", None, now, salt)
      case Done((id, s1)) => s1
      case IntegrityError => s
  }

  // ---------------------------------------------------------------------
  // Contacts

  /** Splitting the first row off a table with unique phones. */
  lemma PhonesUniqueTail(cs: seq<Contact>)
    requires |cs| > 0
    ensures PhonesUnique(cs) ==> PhonesUnique(cs[1..])
    ensures PhonesUnique(cs) ==> forall c :: c in cs[1..] ==> c.phone != cs[0].phone
  {
    if !PhonesUnique(cs) { return; }
    forall i, j | 0 <= i < |cs| - 1 && 0 <= j < |cs| - 1 && i != j
      ensures cs[1..][i].phone != cs[1..][j].phone
    {
      assert cs[1..][i] == cs[i + 1] && cs[1..][j] == cs[j + 1];
    }
    forall c | c in cs[1..] ensures c.phone != cs[0].phone {
      var k :| 0 <= k < |cs[1..]| && cs[1..][k] == c;
      assert cs[k + 1] == c;
    }
  }

  /** Putting a row with a new phone next to a table with unique phones. */
  lemma PhonesUniqueJoin(a: seq<Contact>, b: seq<Contact>)
    ensures PhonesUnique(a) && PhonesUnique(b) && (forall x, y :: x in a && y in b ==> x.phone != y.phone)
      ==> PhonesUnique(a + b)
  {
    if !(PhonesUnique(a) && PhonesUnique(b) && (forall x, y :: x in a && y in b ==> x.phone != y.phone)) {
      return;
    }
    var ab := a + b;
    forall i, j | 0 <= i < |ab| && 0 <= j < |ab| && i != j
      ensures ab[i].phone != ab[j].phone
    {
      if i < |a| && j < |a| {
        assert ab[i] == a[i] && ab[j] == a[j];
      } else if i >= |a| && j >= |a| {
        assert ab[i] == b[i - |a|] && ab[j] == b[j - |a|];
      } else if i < |a| {
        assert ab[i] in a && ab[j] in b;
      } else {
        assert ab[j] in a && ab[i] in b;
      }
    }
  }

  /** The contact stored under `phone`, if any. */
  function FindContact(cs: seq<Contact>, phone: string): (r: Option<Contact>)
    ensures r.Some? ==> r.value in cs && r.value.phone == phone
    ensures r.None? ==> forall c :: c in cs ==> c.phone != phone
    ensures PhonesUnique(cs) ==> forall c :: c in cs && c.phone == phone ==> r == Some(c)
  {
    if cs == [] then None
    else
      PhonesUniqueTail(cs);
      if cs[0].phone == phone then Some(cs[0]) else FindContact(cs[1..], phone)
  }

  /** The rows whose phone differs from `phone`, in their order. */
  function DropPhone(cs: seq<Contact>, phone: string): (r: seq<Contact>)
    ensures forall c :: c in r <==> c in cs && c.phone != phone
    ensures PhonesUnique(cs) ==> PhonesUnique(r)
    decreases |cs|
  {
    if cs == [] then []
    else
      var rest := DropPhone(cs[1..], phone);
      assert forall c :: c in cs <==> c == cs[0] || c in cs[1..];
      PhonesUniqueTail(cs);
      if cs[0].phone == phone then rest
      else
        PhonesUniqueJoin([cs[0]], rest);
        [cs[0]] + rest
  }

  /** `add_contact`, INSERT OR REPLACE keyed on the phone: afterwards exactly
      one contact has that phone and it carries the new values; the contact
      of every other phone is unchanged; the new row is the latest. */
  function AddContact(s: Store, phone: string, name: Option<string>, sourceGroup: Option<string>,
                      scrapedBy: Option<Id>, now: Timestamp): (s': Store)
    requires Valid(s)
    ensures Valid(s') && Evolves(s, s')
    ensures s'.users == s.users && s'.messages == s.messages
    ensures forall c :: c in s'.contacts && c.phone == phone ==> c == Contact(phone, name, sourceGroup, scrapedBy, now)
    ensures FindContact(s'.contacts, phone) == Some(Contact(phone, name, sourceGroup, scrapedBy, now))
    ensures forall p :: p != phone ==> FindContact(s'.contacts, p) == FindContact(s.contacts, p)
    ensures s'.contacts[|s'.contacts| - 1] == Contact(phone, name, sourceGroup, scrapedBy, now)
  {
    var c := Contact(phone, name, sourceGroup, scrapedBy, now);
    var cs := DropPhone(s.contacts, phone) + [c];
    PhonesUniqueJoin(DropPhone(s.contacts, phone), [c]);
    AddContactKeepsOthers(s.contacts, cs, phone);
    s.(contacts := cs)
  }

  lemma AddContactKeepsOthers(cs: seq<Contact>, cs': seq<Contact>, phone: string)
    requires PhonesUnique(cs) && PhonesUnique(cs')
    requires forall c: Contact :: c.phone != phone ==> (c in cs' <==> c in cs)
    ensures forall p :: p != phone ==> FindContact(cs', p) == FindContact(cs, p)
  {
    forall p | p != phone
      ensures FindContact(cs', p) == FindContact(cs, p)
    {
      match FindContact(cs, p)
      case Some(prev) =>
        assert prev in cs';
      case None =>
    }
  }

  /** One entry of a bulk sync: `phone`, with `number` as the fallback key. */
  datatype ContactEntry = ContactEntry(phone: Option<string>, number: Option<string>, name: Option<string>)

  /** `c.get('phone') or c.get('number')`, kept only when non-empty. */
  function EntryPhone(e: ContactEntry): (r: Option<string>)
    ensures r.Some? ==> r.value != ""
    ensures e.phone.Some? && e.phone.value != "" ==> r == e.phone
    ensures (e.phone.None? || e.phone.value == "") ==>
      r == (if e.number.Some? && e.number.value != "" then e.number else None)
  {
    if e.phone.Some? && e.phone.value != "" then e.phone
    else if e.number.Some? && e.number.value != "" then e.number
    else None
  }

  /** The last entry of the batch that names `phone`. */
  function LatestEntry(es: seq<ContactEntry>, phone: string): Option<ContactEntry>
    decreases |es|
  {
    if es == [] then None
    else if EntryPhone(es[|es| - 1]) == Some(phone) then Some(es[|es| - 1])
    else LatestEntry(es[..|es| - 1], phone)
  }

  /** The positions of the entries that carry a usable phone. */
  function UsableEntries(es: seq<ContactEntry>): set<nat> {
    set k | 0 <= k < |es| && EntryPhone(es[k]).Some?
  }

  lemma UsableEntriesExtend(es: seq<ContactEntry>, e: ContactEntry)
    ensures UsableEntries(es + [e]) ==
      UsableEntries(es) + (if EntryPhone(e).Some? then {|es|} else {})
  {
    var es' := es + [e];
    assert forall k :: 0 <= k < |es| ==> es'[k] == es[k];
  }

  /** `bulk_add_contacts`: upserts every entry with a usable phone, in order,
      so the last entry naming a phone wins; counts the entries upserted;
      contacts no entry names are left as they were. */
  function BulkAddContacts(s: Store, es: seq<ContactEntry>, sourceGroup: string,
                           scrapedBy: Option<Id>, now: Timestamp): (r: (nat, Store))
    requires Valid(s)
    ensures Valid(r.1) && Evolves(s, r.1)
    ensures r.1.users == s.users && r.1.messages == s.messages
    ensures r.0 == |UsableEntries(es)|
    ensures forall p :: LatestEntry(es, p).Some? ==>
      FindContact(r.1.contacts, p) == Some(Contact(p, LatestEntry(es, p).value.name, Some(sourceGroup), scrapedBy, now))
    ensures forall p :: LatestEntry(es, p).None? ==> FindContact(r.1.contacts, p) == FindContact(s.contacts, p)
    decreases |es|
  {
    if es == [] then
      assert UsableEntries(es) == {};
      (0, s)
    else
      var init := es[..|es| - 1];
      var e := es[|es| - 1];
      assert es == init + [e];
      UsableEntriesExtend(init, e);
      var (n, s1) := BulkAddContacts(s, init, sourceGroup, scrapedBy, now);
      match EntryPhone(e)
      case None => (n, s1)
      case Some(p) =>
        assert |es| - 1 !in UsableEntries(init);
        (n + 1, AddContact(s1, p, e.name, Some(sourceGroup), scrapedBy, now))
  }

  /** Which key a lone entry is stored under: `phone` when it is non-empty,
      else `number` when that is non-empty; an entry with neither is
      skipped and not counted. */
  lemma SingleEntryKey(s: Store, e: ContactEntry, sourceGroup: string, scrapedBy: Option<Id>, now: Timestamp)
    requires Valid(s)
    ensures var r := BulkAddContacts(s, [e], sourceGroup, scrapedBy, now);
      && (e.phone.Some? && e.phone.value != "" ==>
            r.0 == 1 && FindContact(r.1.contacts, e.phone.value) ==
                        Some(Contact(e.phone.value, e.name, Some(sourceGroup), scrapedBy, now)))
      && ((e.phone.None? || e.phone.value == "") && e.number.Some? && e.number.value != "" ==>
            r.0 == 1 && FindContact(r.1.contacts, e.number.value) ==
                        Some(Contact(e.number.value, e.name, Some(sourceGroup), scrapedBy, now)))
      && ((e.phone.None? || e.phone.value == "") && (e.number.None? || e.number.value == "") ==>
            r == (0, s))
  {
    var es := [e];
    assert es[..0] == [];
    assert UsableEntries(es) == (if EntryPhone(e).Some? then {0} else {});
  }

  /** `count_contacts` */
  function CountContacts(s: Store): nat {
    |s.contacts|
  }

  /** `COUNT(*)` over the contacts is the length of the unwindowed,
      unfiltered listing, which holds every stored contact, and no search
      lists more. */
  lemma CountContactsIsFullListing(s: Store)
    ensures CountContacts(s) == |ListContacts(s, -1, 0, None)|
    ensures forall c :: c in s.contacts ==> c in ListContacts(s, -1, 0, None)
    ensures forall q :: |ListContacts(s, -1, 0, q)| <= CountContacts(s)
  {
  }

  /** SQL `LIKE '%q%'`, read as ASCII-case-insensitive substring search. */
  predicate Contains(text: string, q: string)
    decreases |text|
  {
    q <= text || (|text| > 0 && Contains(text[1..], q))
  }

  predicate Like(field: string, q: string) {
    Contains(Text.Fold(field), Text.Fold(q))
  }

  predicate ContactMatches(c: Contact, search: Option<string>) {
    search.None? || Like(c.phone, search.value) || (c.name.Some? && Like(c.name.value, search.value))
  }

  /** How many rows match the search: the `COUNT(*)` of the same `WHERE`. */
  function CountMatches(cs: seq<Contact>, search: Option<string>): (n: nat)
    ensures n <= |cs|
    ensures search.None? ==> n == |cs|
    decreases |cs|
  {
    if cs == [] then 0
    else CountMatches(cs[1..], search) + (if ContactMatches(cs[0], search) then 1 else 0)
  }

  lemma {:induction false} CountMatchesSnoc(cs: seq<Contact>, c: Contact, search: Option<string>)
    ensures CountMatches(cs + [c], search) == CountMatches(cs, search) + (if ContactMatches(c, search) then 1 else 0)
    decreases |cs|
  {
    if cs != [] {
      assert (cs + [c])[1..] == cs[1..] + [c];
      CountMatchesSnoc(cs[1..], c, search);
    }
  }

  /** The matching contacts, latest write first. */
  function NewestContacts(cs: seq<Contact>, search: Option<string>): (r: seq<Contact>)
    ensures forall c :: c in r <==> c in cs && ContactMatches(c, search)
    ensures |r| == CountMatches(cs, search)
    decreases |cs|
  {
    if cs == [] then []
    else
      var last := cs[|cs| - 1];
      var rest := NewestContacts(cs[..|cs| - 1], search);
      assert forall c :: c in cs <==> c == last || c in cs[..|cs| - 1];
      assert cs == cs[..|cs| - 1] + [last];
      CountMatchesSnoc(cs[..|cs| - 1], last, search);
      (if ContactMatches(last, search) then [last] else []) + rest
  }

  /** SQLite's `LIMIT limit OFFSET offset`: a negative offset counts as zero
      and a negative limit as no limit. */
  /** How many of `matches` rows LIMIT/OFFSET leave: those after the offset
      (read as 0 when negative), cut to the limit unless the limit is
      negative, which SQLite reads as no limit. */
  function PageLength(limit: int, offset: int, matches: nat): nat {
    var left := Max(0, matches - Max(offset, 0));
    if limit < 0 then left else Min(limit, left)
  }

  function Window<T>(rows: seq<T>, limit: int, offset: int): (r: seq<T>)
    ensures var start := Min(Max(offset, 0), |rows|);
      && |r| == (if limit < 0 then |rows| - start else Min(limit, |rows| - start))
      && r == rows[start..start + |r|]
  {
    var start := Min(Max(offset, 0), |rows|);
    var rest := rows[start..];
    if limit < 0 || limit >= |rest| then rest
    else
      assert rest[..limit] == rows[start..start + limit];
      rest[..limit]
  }

  /** A window is as long as LIMIT/OFFSET leave of the rows. */
  lemma WindowLength<T>(rows: seq<T>, limit: int, offset: int)
    ensures |Window(rows, limit, offset)| == PageLength(limit, offset, |rows|)
  {
  }

  /** A window holds only rows it was cut from, and without a limit or an
      offset it is every row. */
  lemma WindowWithin<T>(rows: seq<T>, limit: int, offset: int)
    ensures forall x :: x in Window(rows, limit, offset) ==> x in rows
    ensures limit < 0 && offset <= 0 ==> Window(rows, limit, offset) == rows
  {
    var start := Min(Max(offset, 0), |rows|);
    var r := Window(rows, limit, offset);
    assert r == rows[start..start + |r|];
    forall x | x in r ensures x in rows {
      var k :| 0 <= k < |r| && r[k] == x;
      assert rows[start + k] == x;
    }
  }

  /** Whether `page` is the stretch of `full` that starts at `offset`, read
      as 0 when negative: the rows an offset skips are exactly the first
      ones of the full listing. */
  ghost predicate Stretch<T>(page: seq<T>, full: seq<T>, offset: int) {
    var start := Min(Max(offset, 0), |full|);
    start + |page| <= |full| && page == full[start..start + |page|]
  }

  /** A window is the stretch at its offset of the window with neither a
      limit nor an offset, which is all the rows. */
  lemma WindowIsStretch<T>(rows: seq<T>, limit: int, offset: int)
    ensures Window(rows, -1, 0) == rows
    ensures Stretch(Window(rows, limit, offset), Window(rows, -1, 0), offset)
  {
    assert rows[0..|rows|] == rows;
  }

  /** Consecutive windows tile: `a` rows at `o` followed by `b` rows at
      `o + a` are the `a + b` rows at `o`, so paging forward neither skips
      nor repeats a row. */
  lemma WindowsTile<T>(rows: seq<T>, a: nat, b: nat, o: nat)
    ensures Window(rows, a, o) + Window(rows, b, o + a) == Window(rows, a + b, o)
  {
    var n := |rows|;
    var start := Min(o, n);
    var mid := start + Min(a, n - start);
    var end := mid + Min(b, n - mid);
    TileBounds(n, a, b, o);
    calc {
      Window(rows, a, o) + Window(rows, b, o + a);
      { WindowSlice(rows, a, o, start, mid); WindowSlice(rows, b, o + a, mid, end); }
      rows[start..mid] + rows[mid..end];
      { SlicesJoin(rows, start, mid, end); }
      rows[start..end];
      { WindowSlice(rows, a + b, o, start, end); }
      Window(rows, a + b, o);
    }
  }

  lemma SlicesJoin<T>(rows: seq<T>, i: nat, j: nat, k: nat)
    requires i <= j <= k <= |rows|
    ensures rows[i..j] + rows[j..k] == rows[i..k]
  {
  }

  /** A window with a limit, given its bounds. */
  lemma WindowSlice<T>(rows: seq<T>, limit: nat, offset: nat, start: nat, end: nat)
    requires start == Min(offset, |rows|) && end == start + Min(limit, |rows| - start)
    ensures Window(rows, limit, offset) == rows[start..end]
  {
  }

  /** The arithmetic of two consecutive windows over `n` rows: the second
      starts where the first ends, and together they are as long as the
      window of both lengths. */
  lemma TileBounds(n: nat, a: nat, b: nat, o: nat)
    ensures var start := Min(o, n);
      var mid := start + Min(a, n - start);
      && mid == Min(o + a, n)
      && Min(a + b, n - start) == (mid - start) + Min(b, n - mid)
  {
  }

  /** `list_contacts`: the page of the matching contacts that LIMIT/OFFSET
      select, as many rows as the matches left after the offset allow; with
      neither a limit nor an offset, every matching contact. */
  function ListContacts(s: Store, limit: int, offset: int, search: Option<string>): (r: seq<Contact>)
    ensures |r| == PageLength(limit, offset, CountMatches(s.contacts, search))
    ensures forall c :: c in r ==> c in s.contacts && ContactMatches(c, search)
    ensures limit < 0 && offset <= 0 ==>
      forall c :: c in s.contacts && ContactMatches(c, search) ==> c in r
  {
    var all := NewestContacts(s.contacts, search);
    WindowWithin(all, limit, offset);
    WindowLength(all, limit, offset);
    Window(all, limit, offset)
  }

  /** A page of contacts is the stretch of the full listing (no limit, no
      offset) that starts at the offset, read as 0 when negative. */
  lemma ContactPageSlices(s: Store, limit: int, offset: int, search: Option<string>)
    ensures Stretch(ListContacts(s, limit, offset, search), ListContacts(s, -1, 0, search), offset)
  {
    var all := NewestContacts(s.contacts, search);
    WindowIsStretch(all, limit, offset);
    assert ListContacts(s, -1, 0, search) == Window(all, -1, 0);
    assert ListContacts(s, limit, offset, search) == Window(all, limit, offset);
  }

  /** Contact pages tile: the page of `a` at `o` and the page of `b` at
      `o + a` together are the page of `a + b` at `o`. */
  lemma ContactPagesTile(s: Store, a: nat, b: nat, o: nat, search: Option<string>)
    ensures ListContacts(s, a, o, search) + ListContacts(s, b, o + a, search) == ListContacts(s, a + b, o, search)
  {
    WindowsTile(NewestContacts(s.contacts, search), a, b, o);
  }

  // ---------------------------------------------------------------------
  // Message logs

  /** `log_message`: appends exactly one record, under an id no record had,
      and changes nothing else. */
  function LogMessage(s: Store, senderId: Option<Id>, recipientPhone: string, content: string,
                      attachmentPath: Option<string>, templateUsed: Option<string>,
                      status: string, now: Timestamp): (r: (Id, Store))
    requires Valid(s)
    ensures Valid(r.1) && Evolves(s, r.1)
    ensures r.1.users == s.users && r.1.contacts == s.contacts
    ensures forall m :: m in s.messages ==> m.id != r.0
    ensures r.1.messages == s.messages +
      [MessageLog(r.0, senderId, recipientPhone, content, attachmentPath, templateUsed, now, status)]
  {
    var id := |s.messages| + 1;
    (id, s.(messages := s.messages + [MessageLog(id, senderId, recipientPhone, content,
                                                  attachmentPath, templateUsed, now, status)]))
  }

  /** Python's truthiness of an optional id: `None` and `0` are false. */
  predicate Truthy(id: Option<Id>) {
    id.Some? && id.value != 0
  }

  function CountSentBy(ms: seq<MessageLog>, sender: Id): nat
    decreases |ms|
  {
    if ms == [] then 0
    else CountSentBy(ms[..|ms| - 1], sender) + (if ms[|ms| - 1].senderId == Some(sender) then 1 else 0)
  }

  /** `count_messages(sender_id)`: filtered only when the id is truthy. */
  function CountMessages(s: Store, senderId: Option<Id>): nat {
    if Truthy(senderId) then CountSentBy(s.messages, senderId.value) else |s.messages|
  }

  /** A row of `list_messages`: the record and, by LEFT JOIN, the sender's
      username when the sender row exists. */
  datatype MessageRow = MessageRow(log: MessageLog, senderUsername: Option<string>)

  function SenderName(s: Store, senderId: Option<Id>): Option<string>
    requires Valid(s)
  {
    match senderId
    case None => None
    case Some(id) =>
      match GetUserById(s, id)
      case None => None
      case Some(u) => Some(u.username)
  }

  predicate SenderMatches(m: MessageLog, senderId: Option<Id>) {
    senderId.None? || m.senderId == senderId
  }

  /** The records matching the sender filter, latest first, joined with
      their sender's name. */
  function NewestMessages(s: Store, ms: seq<MessageLog>, senderId: Option<Id>): (r: seq<MessageRow>)
    requires Valid(s)
    ensures forall row :: row in r ==>
      row.log in ms && SenderMatches(row.log, senderId) && row.senderUsername == SenderName(s, row.log.senderId)
    ensures forall m :: m in ms && SenderMatches(m, senderId) ==> exists row :: row in r && row.log == m
    ensures senderId.None? ==> |r| == |ms|
    ensures senderId.Some? ==> |r| == CountSentBy(ms, senderId.value)
    decreases |ms|
  {
    if ms == [] then []
    else
      var last := ms[|ms| - 1];
      var rest := NewestMessages(s, ms[..|ms| - 1], senderId);
      assert forall m :: m in ms <==> m == last || m in ms[..|ms| - 1];
      var head := if SenderMatches(last, senderId) then [MessageRow(last, SenderName(s, last.senderId))] else [];
      assert forall row :: row in head + rest <==> row in head || row in rest;
      head + rest
  }

  /** How many records a sender filter matches: all of them without one. */
  function MatchingCount(s: Store, senderId: Option<Id>): nat {
    if senderId.None? then |s.messages| else CountSentBy(s.messages, senderId.value)
  }

  /** `list_messages`: filtered whenever a sender id is given, latest first,
      windowed by LIMIT/OFFSET: as many rows as the matches left after the
      offset allow, and with neither a limit nor an offset every match. */
  function ListMessages(s: Store, limit: int, offset: int, senderId: Option<Id>): (r: seq<MessageRow>)
    requires Valid(s)
    ensures |r| == PageLength(limit, offset, MatchingCount(s, senderId))
    ensures forall row :: row in r ==> row.log in s.messages && SenderMatches(row.log, senderId)
    ensures limit < 0 && offset <= 0 ==>
      forall m :: m in s.messages && SenderMatches(m, senderId) ==> exists row :: row in r && row.log == m
  {
    var all := NewestMessages(s, s.messages, senderId);
    assert |all| == MatchingCount(s, senderId);
    WindowWithin(all, limit, offset);
    WindowLength(all, limit, offset);
    Window(all, limit, offset)
  }

  /** A page of records is the stretch of the full listing (no limit, no
      offset) that starts at the offset, read as 0 when negative. */
  lemma MessagePageSlices(s: Store, limit: int, offset: int, senderId: Option<Id>)
    requires Valid(s)
    ensures Stretch(ListMessages(s, limit, offset, senderId), ListMessages(s, -1, 0, senderId), offset)
  {
    var all := NewestMessages(s, s.messages, senderId);
    WindowIsStretch(all, limit, offset);
    assert ListMessages(s, -1, 0, senderId) == Window(all, -1, 0);
    assert ListMessages(s, limit, offset, senderId) == Window(all, limit, offset);
  }

  /** Message pages tile: the page of `a` at `o` and the page of `b` at
      `o + a` together are the page of `a + b` at `o`. */
  lemma MessagePagesTile(s: Store, a: nat, b: nat, o: nat, senderId: Option<Id>)
    requires Valid(s)
    ensures ListMessages(s, a, o, senderId) + ListMessages(s, b, o + a, senderId) == ListMessages(s, a + b, o, senderId)
  {
    WindowsTile(NewestMessages(s, s.messages, senderId), a, b, o);
  }

  /** Without a limit or offset, the listing shows every matching record, and
      for a truthy sender its length is what `count_messages` reports. */
  lemma ListAllMatchesCount(s: Store, senderId: Option<Id>)
    requires Valid(s)
    ensures forall m :: m in s.messages && SenderMatches(m, senderId) ==>
      exists row :: row in ListMessages(s, -1, 0, senderId) && row.log == m
    ensures Truthy(senderId) || senderId.None? ==>
      |ListMessages(s, -1, 0, senderId)| == CountMessages(s, senderId)
  {
    var all := NewestMessages(s, s.messages, senderId);
    assert ListMessages(s, -1, 0, senderId) == all;
  }
}

=== FILE: panel.dfy ===
/** app.py: the server-rendered admin panel. Its pages read the access
    token from a cookie, decode it themselves and re-check the live user;
    the rendered HTML is not modelled, only what each page hands to its
    template. */
module Panel {
  import opened Base
  import opened Text
  import opened Models
  import opened Http
  import opened Auth
  import UserRoutes

  /** Whether a stored user may use the panel: its live role, not the
      token's claim. */
  predicate PanelRole(u: User) {
    u.role == Manager || u.role == Admin
  }

  datatype PanelGate = Allow(user: User) | RedirectToLogin

  /** What `decode_token` accepts: a good signature and an unexpired token,
      of either kind. */
  predicate Decodes(t: Token, now: Timestamp) {
    t.signatureValid && Unexpired(t, now)
  }

  /** `admin_required`: the page runs, for the live row the cookie's subject
      names, exactly when the cookie holds a decodable token with an
      integer subject naming an active manager or admin; every other case,
      errors included, redirects to the login page. */
  function AdminRequired(s: Store, cookie: Option<Token>, now: Timestamp): (g: PanelGate)
    requires Valid(s)
    ensures g.Allow? <==>
      && cookie.Some? && Decodes(cookie.value, now)
      && GetCurrentUser(s, cookie.value).Some?
      && GetCurrentUser(s, cookie.value).value.isActive
      && PanelRole(GetCurrentUser(s, cookie.value).value)
    ensures g.Allow? ==> g.user == GetCurrentUser(s, cookie.value).value && g.user in s.users
  {
    match cookie
    case None => RedirectToLogin
    case Some(t) =>
      if !Decodes(t, now) then RedirectToLogin
      else
        match ParseInt(t.sub)
        case None => RedirectToLogin
        case Some(id) =>
          match GetUserById(s, id)
          case None => RedirectToLogin
          case Some(u) =>
            if !u.isActive || !PanelRole(u) then RedirectToLogin else Allow(u)
  }

  /** The gate looks only at the subject: a token's kind and its username
      and role claims make no difference. */
  lemma GateIgnoresClaims(s: Store, t: Token, t': Token, now: Timestamp)
    requires Valid(s)
    requires t.sub == t'.sub && t.signatureValid == t'.signatureValid && t.expiresAt == t'.expiresAt
    ensures AdminRequired(s, Some(t), now) == AdminRequired(s, Some(t'), now)
  {
  }

  /** A worker never gets past the gate, whatever role its token claims. */
  lemma WorkerNeverAllowed(s: Store, cookie: Option<Token>, now: Timestamp)
    requires Valid(s)
    ensures AdminRequired(s, cookie, now).Allow? ==> AdminRequired(s, cookie, now).user.role != Worker
  {
  }

  datatype Cookie = Cookie(name: string, token: Token, httpOnly: bool, sameSite: string)

  datatype LoginForm = LoginForm(username: Option<string>, password: Option<string>)

  datatype PanelLogin =
    | RenderError(message: string)
    | RedirectToDashboard(access: Cookie, refresh: Cookie)

  /** `login_submit`: the stripped username and the password go straight to
      authentication (an empty one is not rejected up front); a failure, or
      a worker, re-renders the form with no cookies; otherwise the tokens
      are set as cookies: the access one readable by scripts, the refresh
      one `HttpOnly`, both `SameSite=Lax`. */
  function LoginSubmit(s: Store, form: LoginForm, now: Timestamp): (r: PanelLogin)
    requires Valid(s)
    ensures var a := AuthenticateUser(s, Strip(form.username.GetOr("")), form.password.GetOr(""));
      && (r == RenderError("Invalid credentials") <==> a.None?)
      && (r == RenderError("Admin access required") <==> a.Some? && !PanelRole(a.value))
      && (r.RedirectToDashboard? <==> a.Some? && PanelRole(a.value))
      && (r.RedirectToDashboard? ==>
            var tokens := GenerateTokens(a.value.id, a.value.username, RoleName(a.value.role), now);
            && r.access == Cookie("access_token", tokens.access, false, "Lax")
            && r.refresh == Cookie("refresh_token", tokens.refresh, true, "Lax"))
  {
    match AuthenticateUser(s, Strip(form.username.GetOr("")), form.password.GetOr(""))
    case None => RenderError("Invalid credentials")
    case Some(u) =>
      if !PanelRole(u) then RenderError("Admin access required")
      else
        var tokens := GenerateTokens(u.id, u.username, RoleName(u.role), now);
        RedirectToDashboard(Cookie("access_token", tokens.access, false, "Lax"),
                            Cookie("refresh_token", tokens.refresh, true, "Lax"))
  }

  /** The access cookie a panel login sets opens the panel, for the same
      user, until it expires (as long as the user is not changed). */
  lemma LoginCookieOpensPanel(s: Store, form: LoginForm, now: Timestamp, later: Timestamp)
    requires Valid(s) && LoginSubmit(s, form, now).RedirectToDashboard?
    requires now <= later < now + ACCESS_TOKEN_LIFETIME
    ensures var u := AuthenticateUser(s, Strip(form.username.GetOr("")), form.password.GetOr("")).value;
      AdminRequired(s, Some(LoginSubmit(s, form, now).access.token), later) == Allow(u)
  {
    var u := AuthenticateUser(s, Strip(form.username.GetOr("")), form.password.GetOr("")).value;
    assert GetUserById(s, u.id) == Some(u);
  }

  /** Deactivating a user shuts it out of the panel at once, even with an
      unexpired cookie. */
  lemma DeactivatedUserRedirected(s: Store, cookie: Token, now: Timestamp)
    requires Valid(s) && ParseInt(cookie.sub).Some? && GetUserById(s, ParseInt(cookie.sub).value).Some?
    ensures AdminRequired(Models.DeleteUser(s, ParseInt(cookie.sub).value).1, Some(cookie), now) == RedirectToLogin
  {
  }

  // ---------------------------------------------------------------------
  // Pages

  /** `users_page`: an admin sees every user, a manager those it created,
      newest first. */
  function UsersPage(s: Store, u: User): (r: seq<UserView>)
    requires Valid(s)
    ensures forall v :: v in r <==>
      exists w :: w in s.users && v == View(w) && (u.role == Admin || w.createdBy == Some(u.id))
    ensures u.role == Admin ==> |r| == |s.users|
    ensures forall i, j :: 0 <= i < j < |r| ==> r[i].id > r[j].id
  {
    Models.ListUsers(s, if u.role == Admin then None else Some(u.id))
  }

  /** For a caller whose token claims its live role, the users page and the
      users API list the same users. */
  lemma UsersPageMatchesApi(s: Store, t: Token, now: Timestamp)
    requires Valid(s) && AdminRequired(s, Some(t), now).Allow?
    requires RoleClaim(t) == RoleName(AdminRequired(s, Some(t), now).user.role)
    ensures UsersPage(s, AdminRequired(s, Some(t), now).user) == UserRoutes.ListUsers(s, t).body.value.users
  {
  }

  const PAGE_SIZE: int := 50

  /** The offset of a 1-based page; a page below 1 gives a negative offset,
      which SQLite reads as 0. */
  function PageOffset(page: int): int {
    (page - 1) * PAGE_SIZE
  }

  /** `(total + limit - 1) // limit`: the number of pages. */
  function PageCount(total: nat): (n: nat)
    ensures n * PAGE_SIZE >= total
    ensures n > 0 ==> (n - 1) * PAGE_SIZE < total
  {
    (total + PAGE_SIZE - 1) / PAGE_SIZE
  }

  /** What a page handler produces behind `admin_required`: the values it
      hands to its template, or `Caught` when it raised, which the
      decorator's `except` answers with a redirect to the login page. */
  datatype Rendered<+T> = Shown(view: T) | Caught

  datatype PageQuery = PageQuery(page: Option<string>, search: Option<string>)

  datatype ContactsView = ContactsView(contacts: seq<Contact>, page: int, pages: nat, total: nat)

  /** The panel's search filter: given only when non-empty. */
  function PageSearch(q: PageQuery): Option<string> {
    if q.search.Some? && q.search.value != "" then q.search else None
  }

  /** `contacts_page`: caught (so a redirect to login) when the page's
      offset is outside what SQLite binds; otherwise one page of 50
      matching contacts, newest first, as many as the matches left after
      the page's offset allow. */
  function ContactsPage(s: Store, q: PageQuery): (r: Rendered<ContactsView>)
    ensures r.Shown? <==> Bindable(PageOffset(QueryInt(q.page, 1)))
    ensures r.Shown? ==>
      && r.view.page == QueryInt(q.page, 1)
      && |r.view.contacts| <= PAGE_SIZE
      && |r.view.contacts| == PageLength(PAGE_SIZE, PageOffset(r.view.page), CountMatches(s.contacts, PageSearch(q)))
      && r.view.total == |s.contacts| && r.view.pages == PageCount(|s.contacts|)
      && forall c :: c in r.view.contacts ==> c in s.contacts && ContactMatches(c, PageSearch(q))
  {
    var page := QueryInt(q.page, 1);
    ContactsOnPage(s, page, PageSearch(q))
  }

  /** `contacts_page` once the page number and the filter are read. */
  function ContactsOnPage(s: Store, page: int, search: Option<string>): (r: Rendered<ContactsView>)
    ensures r.Shown? <==> Bindable(PageOffset(page))
    ensures r.Shown? ==>
      && r.view.page == page
      && |r.view.contacts| == PageLength(PAGE_SIZE, PageOffset(page), CountMatches(s.contacts, search))
      && r.view.total == |s.contacts| && r.view.pages == PageCount(|s.contacts|)
      && forall c :: c in r.view.contacts ==> c in s.contacts && ContactMatches(c, search)
  {
    if !Bindable(PageOffset(page)) then Caught
    else
      var contacts := Models.ListContacts(s, PAGE_SIZE, PageOffset(page), search);
      Shown(ContactsView(contacts, page, PageCount(CountContacts(s)), CountContacts(s)))
  }

  /** Row `i` (0-based) sits on page `i / 50 + 1`, which is one of the
      pages offered for `n > i` rows. */
  lemma PageOfRow(i: nat, n: nat)
    requires i < n
    ensures var page := i / PAGE_SIZE + 1;
      && PageOffset(page) <= i < PageOffset(page) + PAGE_SIZE
      && 1 <= page <= PageCount(n)
  {
    var q := i / PAGE_SIZE;
    assert PageOffset(q + 1) == q * PAGE_SIZE;
    assert q * PAGE_SIZE <= i < q * PAGE_SIZE + PAGE_SIZE;
    assert q * PAGE_SIZE < n;
  }

  /** Row `i` of a listing is in the 50-row window of page `i / 50 + 1`. */
  lemma RowOnItsPage<T>(all: seq<T>, i: nat)
    requires i < |all|
    ensures all[i] in Window(all, PAGE_SIZE, PageOffset(i / PAGE_SIZE + 1))
  {
    var start := PageOffset(i / PAGE_SIZE + 1);
    PageOfRow(i, |all|);
    var w := Window(all, PAGE_SIZE, start);
    assert w == all[start..start + |w|];
    assert w[i - start] == all[i];
  }

  /** Unfiltered, every contact is on the page its position says, and
      that page is one of the `pages` offered (in a table no larger than
      SQLite's row ids allow). */
  lemma EveryContactOnItsPage(s: Store, i: nat)
    requires i < |s.contacts| <= INT64_MAX
    ensures var page := i / PAGE_SIZE + 1;
      && 1 <= page <= PageCount(|s.contacts|)
      && ContactsPage(s, PageQuery(Some(IntToString(page)), None)).Shown?
      && NewestContacts(s.contacts, None)[i] in ContactsPage(s, PageQuery(Some(IntToString(page)), None)).view.contacts
  {
    var page := i / PAGE_SIZE + 1;
    PageOfRow(i, |s.contacts|);
    ParseIntRoundTrip(page);
    assert QueryInt(Some(IntToString(page)), 1) == page;
    assert ContactsPage(s, PageQuery(Some(IntToString(page)), None)) == ContactsOnPage(s, page, None);
    var all := NewestContacts(s.contacts, None);
    RowOnItsPage(all, i);
    assert ContactsOnPage(s, page, None).view.contacts == Window(all, PAGE_SIZE, PageOffset(page));
  }

  datatype MessagesView = MessagesView(messages: seq<MessageRow>, page: int, pages: nat, total: nat)

  /** `messages_page`: caught (so a redirect to login) when the page's
      offset is outside what SQLite binds; otherwise one page of 50
      records from every sender, newest first, as many as the records left
      after the page's offset allow. */
  function MessagesPage(s: Store, q: PageQuery): (r: Rendered<MessagesView>)
    requires Valid(s)
    ensures r.Shown? <==> Bindable(PageOffset(QueryInt(q.page, 1)))
    ensures r.Shown? ==>
      && r.view.page == QueryInt(q.page, 1)
      && |r.view.messages| <= PAGE_SIZE
      && |r.view.messages| == PageLength(PAGE_SIZE, PageOffset(r.view.page), |s.messages|)
      && r.view.total == |s.messages| && r.view.pages == PageCount(|s.messages|)
      && forall row :: row in r.view.messages ==> row.log in s.messages
  {
    var page := QueryInt(q.page, 1);
    MessagesOnPage(s, page)
  }

  /** `messages_page` once the page number is read. */
  function MessagesOnPage(s: Store, page: int): (r: Rendered<MessagesView>)
    requires Valid(s)
    ensures r.Shown? <==> Bindable(PageOffset(page))
    ensures r.Shown? ==>
      && r.view.page == page
      && |r.view.messages| == PageLength(PAGE_SIZE, PageOffset(page), |s.messages|)
      && r.view.total == |s.messages| && r.view.pages == PageCount(|s.messages|)
      && forall row :: row in r.view.messages ==> row.log in s.messages
  {
    if !Bindable(PageOffset(page)) then Caught
    else
      var messages := Models.ListMessages(s, PAGE_SIZE, PageOffset(page), None);
      Shown(MessagesView(messages, page, PageCount(CountMessages(s, None)), CountMessages(s, None)))
  }

  /** Every record is on the page its position in the newest-first order
      names, and that page is one of the `pages` offered (in a table no
      larger than SQLite's row ids allow). */
  lemma EveryMessageOnItsPage(s: Store, i: nat)
    requires Valid(s) && i < |s.messages| <= INT64_MAX
    ensures var page := i / PAGE_SIZE + 1;
      && 1 <= page <= PageCount(|s.messages|)
      && MessagesPage(s, PageQuery(Some(IntToString(page)), None)).Shown?
      && NewestMessages(s, s.messages, None)[i] in MessagesPage(s, PageQuery(Some(IntToString(page)), None)).view.messages
  {
    var page := i / PAGE_SIZE + 1;
    PageOfRow(i, |s.messages|);
    ParseIntRoundTrip(page);
    assert QueryInt(Some(IntToString(page)), 1) == page;
    assert MessagesPage(s, PageQuery(Some(IntToString(page)), None)) == MessagesOnPage(s, page);
    var all := NewestMessages(s, s.messages, None);
    RowOnItsPage(all, i);
    assert MessagesOnPage(s, page).view.messages == Window(all, PAGE_SIZE, PageOffset(page));
  }
}

=== FILE: text.dfy ===
/** The string primitives the handlers lean on: Python's `str.strip()`,
    `str.lower()`, `str(int)` and `int(str)`. */
module Text {
  import opened Base

  /** Python's `str.isspace()` on one character: the characters `strip()`
      removes when called without arguments. */
  predicate IsSpace(c: char) {
    var n := c as int;
    (9 <= n <= 13) || (28 <= n <= 32) || n == 0x85 || n == 0xA0 || n == 0x1680
    || (0x2000 <= n <= 0x200A) || n == 0x2028 || n == 0x2029 || n == 0x202F
    || n == 0x205F || n == 0x3000
  }

  /** Drops leading whitespace: the result is a suffix of `s` that does not
      start with whitespace, and everything dropped was whitespace. */
  function TrimStart(s: string): (r: string)
    ensures |r| <= |s| && r == s[|s| - |r|..]
    ensures r == [] || !IsSpace(r[0])
    ensures forall i :: 0 <= i < |s| - |r| ==> IsSpace(s[i])
  {
    if |s| > 0 && IsSpace(s[0]) then TrimStart(s[1..]) else s
  }

  /** Drops trailing whitespace: the result is a prefix of `s` that does not
      end with whitespace, and everything dropped was whitespace. */
  function TrimEnd(s: string): (r: string)
    ensures |r| <= |s| && r == s[..|r|]
    ensures r == [] || !IsSpace(r[|r| - 1])
    ensures forall i :: |r| <= i < |s| ==> IsSpace(s[i])
  {
    if |s| > 0 && IsSpace(s[|s| - 1]) then TrimEnd(s[..|s| - 1]) else s
  }

  /** `r` sits in `s` at position `i` with only whitespace before and
      after it. */
  predicate Framed(s: string, r: string, i: int) {
    && 0 <= i <= |s| - |r| && r == s[i..i + |r|]
    && (forall k :: 0 <= k < i ==> IsSpace(s[k]))
    && (forall k :: i + |r| <= k < |s| ==> IsSpace(s[k]))
  }

  /** Python's `str.strip()`: no whitespace at either end, empty exactly
      when `s` is all whitespace. `StripFramed` places it inside `s`. */
  function Strip(s: string): (r: string)
    ensures |r| <= |s|
    ensures r == [] || (!IsSpace(r[0]) && !IsSpace(r[|r| - 1]))
    ensures r == [] <==> forall i :: 0 <= i < |s| ==> IsSpace(s[i])
  {
    TrimEnd(TrimStart(s))
  }

  /** What `strip()` returns is the piece of `s` left between a leading and
      a trailing run of whitespace. */
  lemma StripFramed(s: string)
    ensures exists i :: Framed(s, Strip(s), i)
  {
    var t := TrimStart(s);
    var r := TrimEnd(t);
    var i := |s| - |t|;
    assert Strip(s) == r;
    assert r == s[i..i + |r|];
    assert forall k :: 0 <= k < i ==> IsSpace(s[k]);
    assert forall k :: i + |r| <= k < |s| ==> s[k] == t[k - i] && IsSpace(t[k - i]);
    assert Framed(s, r, i);
  }

  /** A string without whitespace at its ends is its own `strip()`. */
  lemma StripUntouched(s: string)
    requires s == [] || (!IsSpace(s[0]) && !IsSpace(s[|s| - 1]))
    ensures Strip(s) == s
  {
  }

  /** Stripping twice is stripping once. */
  lemma StripIdempotent(s: string)
    ensures Strip(Strip(s)) == Strip(s)
  {
    StripUntouched(Strip(s));
  }

  /** Python's `str.lower()` on one character, for the characters whose
      lower case is an ASCII letter: the ASCII capitals and U+212A KELVIN
      SIGN, which lowers to `k`. Every other character is kept. */
  function LowerChar(c: char): (d: char)
    ensures 'a' <= d <= 'z' <==> ('a' <= c <= 'z' || 'A' <= c <= 'Z' || c == '\U{212A}')
  {
    if 'A' <= c <= 'Z' then (c as int + 32) as char
    else if c == '\U{212A}' then 'k'
    else c
  }

  /** Python's `str.lower()`, character by character. */
  function Lower(s: string): (r: string)
    ensures |r| == |s|
    ensures forall i :: 0 <= i < |s| ==> r[i] == LowerChar(s[i])
  {
    if s == [] then [] else [LowerChar(s[0])] + Lower(s[1..])
  }

  /** SQLite's case folding for `LIKE`: only the ASCII capitals are folded. */
  function FoldChar(c: char): (d: char)
    ensures 'A' <= c <= 'Z' ==> d as int == c as int + 32
    ensures !('A' <= c <= 'Z') ==> d == c
  {
    if 'A' <= c <= 'Z' then (c as int + 32) as char else c
  }

  function Fold(s: string): (r: string)
    ensures |r| == |s|
    ensures forall i :: 0 <= i < |s| ==> r[i] == FoldChar(s[i])
  {
    if s == [] then [] else [FoldChar(s[0])] + Fold(s[1..])
  }

  predicate IsDigit(c: char) {
    '0' <= c <= '9'
  }

  predicate AllDigits(s: string) {
    forall i :: 0 <= i < |s| ==> IsDigit(s[i])
  }

  function DigitChar(d: nat): (c: char)
    requires d < 10
    ensures IsDigit(c)
  {
    ('0' as int + d) as char
  }

  function DigitValue(c: char): (d: nat)
    requires IsDigit(c)
    ensures d < 10
  {
    c as int - '0' as int
  }

  /** The decimal numeral of `n`, without leading zeros. */
  function NatToDecimal(n: nat): (r: string)
    ensures |r| > 0 && AllDigits(r)
    decreases n
  {
    if n < 10 then [DigitChar(n)] else NatToDecimal(n / 10) + [DigitChar(n % 10)]
  }

  /** The value of a numeral, read left to right. */
  function DecimalValue(d: string): nat
    requires AllDigits(d)
    decreases |d|
  {
    if d == [] then 0 else DecimalValue(d[..|d| - 1]) * 10 + DigitValue(d[|d| - 1])
  }

  /** Python's `str(n)` for an integer. */
  function IntToString(n: int): (r: string)
    ensures |r| > 0 && !IsSpace(r[0]) && !IsSpace(r[|r| - 1])
  {
    if n < 0 then "-" + NatToDecimal(-n) else NatToDecimal(n)
  }

  /** Python's `int(s)` for a string: optional surrounding whitespace, an
      optional sign and one or more ASCII digits; anything else is the
      `ValueError` branch, here `None`. */
  function ParseInt(s: string): (r: Option<int>)
    ensures r.Some? ==> |Strip(s)| > 0
  {
    var t := Strip(s);
    if |t| > 1 && (t[0] == '-' || t[0] == '+') && AllDigits(t[1..]) then
      var v: int := DecimalValue(t[1..]);
      Some(if t[0] == '-' then -v else v)
    else if |t| > 0 && AllDigits(t) then
      Some(DecimalValue(t))
    else
      None
  }

  lemma {:induction false} DecimalRoundTrip(n: nat)
    ensures DecimalValue(NatToDecimal(n)) == n
    decreases n
  {
    if n >= 10 {
      var d := NatToDecimal(n);
      var p := NatToDecimal(n / 10);
      assert d[..|d| - 1] == p;
      DecimalRoundTrip(n / 10);
    }
  }

  /** `int(str(n)) == n`: the identity a token subject carries survives the
      trip through its string encoding. */
  lemma ParseIntRoundTrip(n: int)
    ensures ParseInt(IntToString(n)) == Some(n)
  {
    var s := IntToString(n);
    StripUntouched(s);
    if n < 0 {
      assert s[1..] == NatToDecimal(-n);
      DecimalRoundTrip(-n);
    } else {
      DecimalRoundTrip(n);
    }
  }
}

=== FILE: user_routes.dfy ===
/** routes/users.py: user management under `/api/users`. Every handler
    sits behind `Authorize(presented, Access, now, Some(StaffRoles))` and
    receives the token it granted. Target ids are `nat`: the `<int:...>`
    path converter matches digits only, so the router answers a negative
    id with 404 before any handler runs, while a non-negative one of any
    size reaches the handler. */
module UserRoutes {
  import opened Base
  import opened Text
  import opened Models
  import opened Http
  import opened Auth

  const StaffRoles: set<string> := {"manager", "admin"}

  /** The decorators of every route here. Workers, and tokens with no role
      claim, are turned away with 403 before any handler runs. */
  function StaffGate(presented: Option<Token>, now: Timestamp): (g: Gate)
    ensures g.Granted? <==> presented.Some? && Accepts(presented.value, Access, now)
                            && RoleClaim(presented.value) in StaffRoles
    ensures presented.Some? && Accepts(presented.value, Access, now) && RoleClaim(presented.value) == "worker"
            ==> g.Denied? && g.status == FORBIDDEN
  {
    Authorize(presented, Access, now, Some(StaffRoles))
  }

  datatype UserList = UserList(users: seq<UserView>, total: nat)

  /** Whose users a listing shows: everyone's for an admin claim, otherwise
      those created by the subject (everyone's again when the subject is
      not an integer, as `list_users(created_by=None)` is unfiltered). */
  function ListScope(t: Token): Option<Id> {
    if RoleClaim(t) == "admin" then None else GetCurrentUserId(t)
  }

  /** `list_users`: an admin claim sees every user; any other claim sees
      exactly the users the caller created, newest first; `total` is the
      length of the list. */
  function ListUsers(s: Store, t: Token): (r: Reply<UserList>)
    requires Valid(s)
    ensures r.status == OK && r.body.Json?
    ensures r.body.value.total == |r.body.value.users|
    ensures RoleClaim(t) == "admin" ==> |r.body.value.users| == |s.users|
    ensures forall v :: v in r.body.value.users <==>
      exists u :: u in s.users && CreatedByMatches(u, ListScope(t)) && v == View(u)
    ensures forall i, j :: 0 <= i < j < |r.body.value.users| ==>
      r.body.value.users[i].id > r.body.value.users[j].id
  {
    var users := Models.ListUsers(s, ListScope(t));
    Reply(OK, Json(UserList(users, |users|)))
  }

  /** Whether the caller passes `get_user`'s permission check. */
  predicate MayView(s: Store, t: Token, targetId: Id)
    requires Valid(s)
  {
    RoleClaim(t) == "admin" || CanManage(s, GetCurrentUserId(t), targetId)
  }

  /** `get_user`: 500 for a target id above what SQLite binds, which both the
      permission check and the lookup hand to it first; 403 unless the
      claim is admin or the caller manages the target, checked before
      existence; then 404 for a missing target; otherwise the target's
      view. */
  function GetUser(s: Store, t: Token, targetId: nat): (r: Reply<UserView>)
    requires Valid(s)
    ensures r.status == INTERNAL_ERROR <==> !Bindable(targetId)
    ensures r.status == FORBIDDEN <==> Bindable(targetId) && !MayView(s, t, targetId)
    ensures r.status == NOT_FOUND <==> Bindable(targetId) && MayView(s, t, targetId) && GetUserById(s, targetId).None?
    ensures r.status == OK <==> Bindable(targetId) && MayView(s, t, targetId) && GetUserById(s, targetId).Some?
    ensures r.status == OK ==> r.body == Json(View(GetUserById(s, targetId).value))
  {
    if !Bindable(targetId) then Fail(INTERNAL_ERROR, "Internal server error")
    else if !MayView(s, t, targetId) then Fail(FORBIDDEN, "Cannot access this user")
    else
      match GetUserById(s, targetId)
      case None => Fail(NOT_FOUND, "User not found")
      case Some(u) => Reply(OK, Json(View(u)))
  }

  /** A missing target that SQLite can bind costs a non-admin claim 403
      and an admin claim 404; one above 2^63-1 is 500 for both. */
  lemma MissingTargetStatus(s: Store, t: Token, targetId: nat)
    requires Valid(s) && GetUserById(s, targetId).None?
    ensures Bindable(targetId) ==>
      GetUser(s, t, targetId).status == (if RoleClaim(t) == "admin" then NOT_FOUND else FORBIDDEN)
    ensures !Bindable(targetId) ==> GetUser(s, t, targetId).status == INTERNAL_ERROR
  {
  }

  /** For a caller that is, live and by claim, a manager, the users it may
      open are exactly the users its listing shows (in a table no larger
      than SQLite's row ids allow). */
  lemma ManagerViewsWhatItLists(s: Store, t: Token, m: User, targetId: nat)
    requires Valid(s) && |s.users| <= INT64_MAX && m in s.users && m.role == Manager
    requires RoleClaim(t) == "manager" && GetCurrentUserId(t) == Some(m.id)
    ensures GetUser(s, t, targetId).status == OK <==>
      exists v :: v in ListUsers(s, t).body.value.users && v.id == targetId
  {
    assert GetUserById(s, m.id) == Some(m);
    if GetUser(s, t, targetId).status == OK {
      OpenedIsListed(s, t, m, targetId);
    }
    if exists v :: v in ListUsers(s, t).body.value.users && v.id == targetId {
      ListedIsOpened(s, t, m, targetId);
    }
  }

  lemma OpenedIsListed(s: Store, t: Token, m: User, targetId: nat)
    requires Valid(s) && GetUserById(s, m.id) == Some(m) && m.role == Manager
    requires RoleClaim(t) == "manager" && GetCurrentUserId(t) == Some(m.id)
    requires GetUser(s, t, targetId).status == OK
    ensures exists v :: v in ListUsers(s, t).body.value.users && v.id == targetId
  {
    var u := GetUserById(s, targetId).value;
    assert CreatedByMatches(u, ListScope(t));
    assert View(u) in ListUsers(s, t).body.value.users;
  }

  lemma ListedIsOpened(s: Store, t: Token, m: User, targetId: nat)
    requires Valid(s) && |s.users| <= INT64_MAX && GetUserById(s, m.id) == Some(m) && m.role == Manager
    requires RoleClaim(t) == "manager" && GetCurrentUserId(t) == Some(m.id)
    requires exists v :: v in ListUsers(s, t).body.value.users && v.id == targetId
    ensures GetUser(s, t, targetId).status == OK
  {
    var v :| v in ListUsers(s, t).body.value.users && v.id == targetId;
    var u :| u in s.users && CreatedByMatches(u, Some(m.id)) && v == View(u);
    CreatedIsOpened(s, t, m, u);
  }

  /** A user the manager created is one it may open. */
  lemma CreatedIsOpened(s: Store, t: Token, m: User, u: User)
    requires Valid(s) && |s.users| <= INT64_MAX && GetUserById(s, m.id) == Some(m) && m.role == Manager
    requires RoleClaim(t) == "manager" && GetCurrentUserId(t) == Some(m.id)
    requires u in s.users && u.createdBy == Some(m.id)
    ensures GetUser(s, t, u.id).status == OK
  {
    assert GetUserById(s, u.id) == Some(u);
    assert Bindable(u.id);
    assert MayView(s, t, u.id);
  }

  datatype CreateUserRequest = CreateUserRequest(username: Option<string>, password: Option<string>, role: Option<string>)

  datatype CreatedUser = CreatedUser(id: Id, username: string, role: string, createdBy: Option<Id>)

  /** The requested role, lower-cased, `worker` when none is given. */
  function RequestedRole(req: CreateUserRequest): string {
    Lower(req.role.GetOr("worker"))
  }

  /** Python lowers U+212A KELVIN SIGN to `k`, so a role spelled with it
      names a worker, and a manager creating a user under that spelling
      gets a 201. */
  lemma KelvinSpellsWorker(s: Store, t: Token, name: string, password: string, now: Timestamp, salt: nat)
    requires Valid(s) && RoleClaim(t) == "manager"
    requires Strip(name) != "" && password != "" && !UsernameTaken(s, Strip(name))
    ensures var req := CreateUserRequest(Some(name), Some(password), Some("WOR\U{212A}ER"));
      RequestedRole(req) == "worker" && CreateUser(s, t, req, now, salt).reply.status == CREATED
  {
    var req := CreateUserRequest(Some(name), Some(password), Some("WOR\U{212A}ER"));
    KelvinLowers();
    assert RequestedRole(req) == "worker";
    assert CreateFieldsPresent(req);
    assert CreateRoleAllowed(t, req);
  }

  lemma KelvinLowers()
    ensures Lower("WOR\U{212A}ER") == "worker"
  {
    var w := "WOR\U{212A}ER";
    assert Lower(w) == [Lower(w)[0], Lower(w)[1], Lower(w)[2], Lower(w)[3], Lower(w)[4], Lower(w)[5]];
  }

  /** The roles a caller may hand out: an admin claim may create workers
      and managers, any other claim only workers. */
  function CreatableRoles(claim: string): (rs: set<string>)
    ensures "worker" in rs && "admin" !in rs
    ensures "manager" in rs <==> claim == "admin"
    ensures rs <= {"worker", "manager"}
  {
    if claim == "admin" then {"worker", "manager"} else {"worker"}
  }

  lemma CreatableRolesParse(claim: string, role: string)
    requires role in CreatableRoles(claim)
    ensures ParseRole(role).Some? && ParseRole(role).value != Admin
    ensures claim != "admin" ==> ParseRole(role).value == Worker
  {
  }

  /** The checks of `create_user`, in the order it makes them. */
  predicate CreateFieldsPresent(req: CreateUserRequest) {
    Strip(req.username.GetOr("")) != "" && req.password.GetOr("") != ""
  }

  predicate CreateRoleAllowed(t: Token, req: CreateUserRequest) {
    RequestedRole(req) in CreatableRoles(RoleClaim(t))
  }

  /** What a 201 from `create_user` leaves behind: the reply names a new id
      no row had, and that id now holds an active user with the given
      name, password and role, created by the caller; every other user and
      both other tables are as they were. */
  ghost predicate Admitted(s: Store, s': Store, t: Token, name: string, password: string, role: string,
                           now: Timestamp, salt: nat, body: Body<CreatedUser>) {
    && Valid(s) && Valid(s')
    && body.Json? && ParseRole(role).Some?
    && var id := body.value.id;
    && body == Json(CreatedUser(id, name, role, GetCurrentUserId(t)))
    && |s'.users| == |s.users| + 1
    && GetUserById(s, id).None?
    && GetUserById(s', id) == Some(User(id, name, HashPassword(password, salt),
                                        ParseRole(role).value, GetCurrentUserId(t), now, true))
    && (forall j :: j != id ==> GetUserById(s', j) == GetUserById(s, j))
    && s'.contacts == s.contacts && s'.messages == s.messages
  }

  /** The 201 branch of `create_user`: the insert of a free name under an
      admitted role, reported back with the caller as creator. */
  function Admit(s: Store, t: Token, name: string, password: string, role: string,
                 now: Timestamp, salt: nat): (r: Step<CreatedUser>)
    requires Valid(s) && ParseRole(role).Some? && !UsernameTaken(s, name)
    ensures Valid(r.store) && Evolves(s, r.store)
    ensures r.reply.status == CREATED
    ensures Admitted(s, r.store, t, name, password, role, now, salt, r.reply.body)
  {
    var creator := GetCurrentUserId(t);
    var res := Models.CreateUser(s, name, password, role, creator, now, salt);
    var (id, s') := res.value;
    assert GetUserById(s, id).None?;
    Step(Reply(CREATED, Json(CreatedUser(id, name, role, creator))), s')
  }

  /** `create_user`: 400 without a (stripped) username or a password, 403
      for a role the caller may not create, 409 for a taken username, and
      otherwise 201 with one new active user created by the caller. Only a
      201 changes the store. */
  function CreateUser(s: Store, t: Token, req: CreateUserRequest, now: Timestamp, salt: nat): (r: Step<CreatedUser>)
    requires Valid(s)
    ensures Valid(r.store) && Evolves(s, r.store)
    ensures r.reply.status != CREATED ==> r.store == s
    ensures r.reply.status == BAD_REQUEST <==> !CreateFieldsPresent(req)
    ensures r.reply.status == FORBIDDEN <==> CreateFieldsPresent(req) && !CreateRoleAllowed(t, req)
    ensures r.reply.status == CONFLICT <==>
      CreateFieldsPresent(req) && CreateRoleAllowed(t, req) && UsernameTaken(s, Strip(req.username.GetOr("")))
    ensures r.reply.status == CREATED <==>
      CreateFieldsPresent(req) && CreateRoleAllowed(t, req) && !UsernameTaken(s, Strip(req.username.GetOr("")))
    ensures r.reply.status == CREATED ==>
      Admitted(s, r.store, t, Strip(req.username.GetOr("")), req.password.GetOr(""), RequestedRole(req), now, salt, r.reply.body)
  {
    var name := Strip(req.username.GetOr(""));
    var password := req.password.GetOr("");
    var role := RequestedRole(req);
    if name == "" || password == "" then
      Step(Fail(BAD_REQUEST, "Username and password required"), s)
    else if role !in CreatableRoles(RoleClaim(t)) then
      Step(Fail(FORBIDDEN, "Cannot create user with this role"), s)
    else if GetUserByUsername(s, name).Some? then
      Step(Fail(CONFLICT, "Username already exists"), s)
    else
      CreatableRolesParse(RoleClaim(t), role);
      Admit(s, t, name, password, role, now, salt)
  }

  /** Creation through the API never produces an admin, and a caller
      without an admin claim only ever produces workers. */
  lemma CreateNeverMakesAdmin(s: Store, t: Token, req: CreateUserRequest, now: Timestamp, salt: nat)
    requires Valid(s)
    ensures var r := CreateUser(s, t, req, now, salt);
      r.reply.status == CREATED ==>
        var u := GetUserById(r.store, r.reply.body.value.id).value;
        && u.role != Admin
        && (RoleClaim(t) != "admin" ==> u.role == Worker)
  {
    var r := CreateUser(s, t, req, now, salt);
    if r.reply.status == CREATED {
      CreatableRolesParse(RoleClaim(t), RequestedRole(req));
    }
  }

  /** A user a manager creates shows up in that manager's own listing. */
  lemma CreatedUserIsListed(s: Store, t: Token, req: CreateUserRequest, now: Timestamp, salt: nat)
    requires Valid(s) && RoleClaim(t) == "manager" && GetCurrentUserId(t).Some?
    ensures var r := CreateUser(s, t, req, now, salt);
      r.reply.status == CREATED ==>
        exists v :: v in ListUsers(r.store, t).body.value.users && v.id == r.reply.body.value.id
  {
    var r := CreateUser(s, t, req, now, salt);
    if r.reply.status == CREATED {
      var u := GetUserById(r.store, r.reply.body.value.id).value;
      assert CreatedByMatches(u, ListScope(t));
      assert View(u) in ListUsers(r.store, t).body.value.users;
    }
  }

  datatype UpdateUserRequest = UpdateUserRequest(username: Option<string>, password: Option<string>, isActive: Option<bool>)

  /** The requested username, stripped. */
  function NewUsername(req: UpdateUserRequest): Option<string> {
    match req.username
    case None => None
    case Some(n) => Some(Strip(n))
  }

  predicate UpdateClashes(s: Store, targetId: Id, req: UpdateUserRequest) {
    NewUsername(req).Some? && RenameClashes(s, targetId, NewUsername(req).value)
  }

  predicate UpdateHasFields(req: UpdateUserRequest) {
    req.username.Some? || req.password.Some? || req.isActive.Some?
  }

  /** `update_user`: 500 for a target id above what SQLite binds, which the
      permission check hands to it first; 403 unless the caller manages the
      target (for every role, admins included, judged on the live store);
      409 for a new name held by a different user; 400 when nothing is
      supplied; otherwise 200 and only the supplied fields of the target
      change. */
  function UpdateUser(s: Store, t: Token, targetId: nat, req: UpdateUserRequest, salt: nat): (r: Step<string>)
    requires Valid(s)
    ensures Valid(r.store) && Evolves(s, r.store)
    ensures r.reply.status != OK ==> r.store == s
    ensures r.reply.status == INTERNAL_ERROR <==> !Bindable(targetId)
    ensures r.reply.status == FORBIDDEN <==> Bindable(targetId) && !CanManage(s, GetCurrentUserId(t), targetId)
    ensures r.reply.status == CONFLICT <==>
      Bindable(targetId) && CanManage(s, GetCurrentUserId(t), targetId) && UpdateClashes(s, targetId, req)
    ensures r.reply.status == BAD_REQUEST <==>
      Bindable(targetId) && CanManage(s, GetCurrentUserId(t), targetId) && !UpdateClashes(s, targetId, req)
      && !UpdateHasFields(req)
    ensures r.reply.status == OK <==>
      Bindable(targetId) && CanManage(s, GetCurrentUserId(t), targetId) && !UpdateClashes(s, targetId, req)
      && UpdateHasFields(req)
    ensures r.reply.status == OK ==>
      && GetUserById(r.store, targetId).Some?
      && Patched(GetUserById(s, targetId).value, GetUserById(r.store, targetId).value,
                 NewUsername(req), req.password, req.isActive)
      && (forall j :: j != targetId ==> GetUserById(r.store, j) == GetUserById(s, j))
      && r.store.contacts == s.contacts && r.store.messages == s.messages
  {
    if !Bindable(targetId) then
      Step(Fail(INTERNAL_ERROR, "Internal server error"), s)
    else if !CanManage(s, GetCurrentUserId(t), targetId) then
      Step(Fail(FORBIDDEN, "Cannot modify this user"), s)
    else
      var name := NewUsername(req);
      if name.Some? && (match GetUserByUsername(s, name.value) case Some(e) => e.id != targetId case None => false) then
        Step(Fail(CONFLICT, "Username already taken"), s)
      else
        match Models.UpdateUser(s, targetId, name, req.password, req.isActive, salt)
        case Done((ok, s')) =>
          if ok then Step(Reply(OK, Json("User updated successfully")), s')
          else Step(Fail(BAD_REQUEST, "No changes made or user not found"), s)
        case IntegrityError => Step(Fail(INTERNAL_ERROR, "Integrity error"), s)
  }

  /** Keeping one's current name is no clash. */
  lemma RenameToOwnNameAllowed(s: Store, t: Token, target: User, password: Option<string>,
                               isActive: Option<bool>, salt: nat)
    requires Valid(s) && |s.users| <= INT64_MAX && target in s.users && CanManage(s, GetCurrentUserId(t), target.id)
    requires Strip(target.username) == target.username
    ensures UpdateUser(s, t, target.id, UpdateUserRequest(Some(target.username), password, isActive), salt).reply.status == OK
  {
  }

  /** `delete_user`: 400 when the caller targets itself, decided before
      anything reaches SQLite; 500 for a target id above what SQLite binds; 403
      unless the caller manages the target; otherwise 200 and the target is
      deactivated, nothing else changing. */
  function DeleteUser(s: Store, t: Token, targetId: nat): (r: Step<string>)
    requires Valid(s)
    ensures Valid(r.store) && Evolves(s, r.store)
    ensures r.reply.status != OK ==> r.store == s
    ensures r.reply.status == BAD_REQUEST <==> GetCurrentUserId(t) == Some(targetId)
    ensures r.reply.status == INTERNAL_ERROR <==> GetCurrentUserId(t) != Some(targetId) && !Bindable(targetId)
    ensures r.reply.status == FORBIDDEN <==>
      GetCurrentUserId(t) != Some(targetId) && Bindable(targetId) && !CanManage(s, GetCurrentUserId(t), targetId)
    ensures r.reply.status == OK <==>
      GetCurrentUserId(t) != Some(targetId) && Bindable(targetId) && CanManage(s, GetCurrentUserId(t), targetId)
    ensures r.reply.status == OK ==>
      && GetUserById(r.store, targetId) == Some(GetUserById(s, targetId).value.(isActive := false))
      && (forall j :: j != targetId ==> GetUserById(r.store, j) == GetUserById(s, j))
      && r.store.contacts == s.contacts && r.store.messages == s.messages
  {
    DeleteAs(s, GetCurrentUserId(t), targetId)
  }

  /** `delete_user` once the subject claim is read as `actor`. */
  function DeleteAs(s: Store, actor: Option<Id>, targetId: nat): (r: Step<string>)
    requires Valid(s)
    ensures Valid(r.store) && Evolves(s, r.store)
    ensures r.reply.status != OK ==> r.store == s
    ensures r.reply.status == BAD_REQUEST <==> actor == Some(targetId)
    ensures r.reply.status == INTERNAL_ERROR <==> actor != Some(targetId) && !Bindable(targetId)
    ensures r.reply.status == FORBIDDEN <==>
      actor != Some(targetId) && Bindable(targetId) && !CanManage(s, actor, targetId)
    ensures r.reply.status == OK <==>
      actor != Some(targetId) && Bindable(targetId) && CanManage(s, actor, targetId)
    ensures r.reply.status == OK ==>
      && GetUserById(r.store, targetId) == Some(GetUserById(s, targetId).value.(isActive := false))
      && (forall j :: j != targetId ==> GetUserById(r.store, j) == GetUserById(s, j))
      && r.store.contacts == s.contacts && r.store.messages == s.messages
  {
    if actor == Some(targetId) then
      Step(Fail(BAD_REQUEST, "Cannot delete your own account"), s)
    else if !Bindable(targetId) then
      Step(Fail(INTERNAL_ERROR, "Internal server error"), s)
    else if !CanManage(s, actor, targetId) then
      Step(Fail(FORBIDDEN, "Cannot delete this user"), s)
    else
      Terminate(s, targetId)
  }

  /** The last step of `delete_user`: the soft delete, and 404 when it finds
      no row to deactivate. */
  function Terminate(s: Store, targetId: nat): (r: Step<string>)
    requires Valid(s)
    ensures Valid(r.store) && Evolves(s, r.store)
    ensures r.reply.status == OK <==> GetUserById(s, targetId).Some?
    ensures r.reply.status != OK ==> r.reply.status == NOT_FOUND && r.store == s
    ensures r.reply.status == OK ==>
      && GetUserById(r.store, targetId) == Some(GetUserById(s, targetId).value.(isActive := false))
      && (forall j :: j != targetId ==> GetUserById(r.store, j) == GetUserById(s, j))
      && r.store.contacts == s.contacts && r.store.messages == s.messages
  {
    var (ok, s') := Models.DeleteUser(s, targetId);
    if ok then Step(Reply(OK, Json("User terminated successfully")), s')
    else Step(Fail(NOT_FOUND, "User not found"), s)
  }

  /** Deactivation does not reach these routes: `can_manage_user` never
      reads the actor's `is_active`, so a manager or admin whose own row was
      soft-deleted still gets the same answers with an unexpired token. */
  lemma DeactivatedActorStillManages(s: Store, t: Token, actor: Id, targetId: nat)
    requires Valid(s) && GetCurrentUserId(t) == Some(actor) && actor != targetId
    ensures var s' := Models.DeleteUser(s, actor).1;
      && CanManage(s', Some(actor), targetId) == CanManage(s, Some(actor), targetId)
      && DeleteUser(s', t, targetId).reply.status == DeleteUser(s, t, targetId).reply.status
  {
  }
}
